=== FILE: README.md ===
# Babble server: channel/session store and message routing

This project models the core of the Babble voice-chat server (`Server/Server.cs`)
in Dafny, as a sequential state machine, and proves properties of it.

The state is the server's `channelSessions` and `connectedClients` lists and the
`UserSession` objects they share:

- Sessions live in one heap-like map keyed by connection id.
- Clients refer to sessions by that id, and so do the member lists of channels.
- `Guid.NewGuid` becomes a counter of ids issued so far, so every new id is fresh.

Every handler is a pure function from the state, the requesting client, the
message and the answers of the external services (`Oracle`) to a `Step`. A
`Step` holds the state the handler leaves, the writes that succeeded in order,
and whether an exception escaped.

A write to a client in the set `unreachable` throws. `Broadcast` catches such an
exception per target; `client.WriteMessage` in a handler lets it escape.

Modules:

- `Model`: the data model and id lookups (`FindChannel`, `ResolveTarget`).
- `Text`: `string.IsNullOrWhiteSpace` and the `"Anon#" + n` names.
- `Store`: `AddChannel`, `AddUserToChannel`, `RemoveUserFromChannel` and the
  delete handler's evacuation loop.
- `Broadcast`: recipient selection of `Broadcast`, `BroadcastAll` and `BroadcastChannel`.
- `Handlers`: the eleven message handlers and the dispatch table.
- `Connection`: the initial state, registering a client, the read loop, and the
  clean-up after it.

The source's quirks are modelled as written:

- **Two lobby ids.** The delete guard refuses id 1, while login and evacuation
  target id 0. When no channel has the target id, `channelSessions[0]` is used.
- **Credential fall-through.** The credential handler always ends with the failure
  response, even after a successful login. A blank username that the user service
  also accepts runs both login branches. The client then holds the second session,
  and the anonymous one stays in its channel with no client holding it.
- **Unauthenticated broadcasts.** A broadcast from a client without a session
  reaches nobody, because line 364 throws for every target.
- **Exceptions skip clean-up.** An exception that escapes a handler, or a failed
  `ReadMessage`, ends the read loop without the clean-up.
- **Deleting the evacuation target.** Deleting the channel that is itself the
  evacuation target, while it has members, throws from the enumerator after the
  first re-add.

## Model

| member | source | states |
|---|---|---|
| Model.FindChannel | Server/Server.cs:295 | `FirstOrDefault` by id: the index found holds the id and no earlier channel does; None exactly when no channel has the id |
| Model.ResolveTarget | Server/Server.cs:295-301 | the channel a target id resolves to is the first channel with that id, or channel 0 when none has it; None exactly when the channel list is empty |
| Model.TargetIsFirstWithItsId | Server/Server.cs:295-304 | a later lookup by the resolved channel's own id finds the same channel again |
| Store.RemoveFirst | Server/Server.cs:322-323 | removal of the first occurrence: the multiset loses one copy of the session, and an absent session leaves the list as it was |
| Store.RemoveFirstShape | Server/Server.cs:322-323 | removal keeps the order: the elements before the removed one stay in place and the later ones move up by one |
| Store.AddUserToChannel | Server/Server.cs:293-307 | the session is appended to exactly the resolved channel and records that channel's id; every other channel, session and client is unchanged; an empty channel list throws |
| Store.AddUserKeepsValid | Server/Server.cs:293-307 | adding a live session keeps the object graph well formed |
| Store.RemoveUserFromChannel | Server/Server.cs:309-324 | a null session or an unknown channel id changes nothing; otherwise only the channel with the session's `ChannelId` changes, and it loses one occurrence of the session |
| Store.RemoveUserKeepsValid | Server/Server.cs:309-324 | removal keeps the object graph well formed |
| Store.AddChannel | Server/Server.cs:288-291 | the channel is appended at the end; the existing channels keep their places, and clients and sessions are unchanged |
| Store.AddChannelLookup | Server/Server.cs:288-291 | after `AddChannel` a lookup finds an existing id where it was before, and a new id at the new last channel; the memberships gain the new channel's members |
| Store.AddPlaces | Server/Server.cs:293-307 | adding a session that is in no channel leaves it in exactly one channel, the one its `ChannelId` leads to |
| Store.RemoveUnplaces | Server/Server.cs:309-324 | removing a placed session leaves it in no channel and takes exactly one membership away |
| Store.RemoveAfterAdd | Server/Server.cs:293-324 | removal undoes the addition of a session that was in no channel: every channel is restored |
| Store.MoveKeepsPlacement | Server/Server.cs:203-206 | remove-then-add keeps a placed session placed, puts it in the resolved channel and keeps the overall membership |
| Store.EvacuateMembers | Server/Server.cs:253-256 | the evacuees are appended, in order, to the channel id 0 resolves to; no other channel changes and the channel ids stay |
| Store.EvacuationKeepsValid | Server/Server.cs:253-256 | evacuation keeps the object graph well formed |
| Store.EvacuationRelabelsMembers | Server/Server.cs:253-256 | every evacuee records the target channel's id, and no other session changes |
| Broadcast.Broadcast | Server/Server.cs:351-374 | each target receives the message once for each time it is listed, exactly when it is not the skipped source, the source has a session, and the write succeeds |
| Broadcast.NeverEchoes | Server/Server.cs:357-360 | with `includeSelf` false the source never receives its own message |
| Broadcast.IncludeSelfReachesAll | Server/Server.cs:351-374 | with `includeSelf` true and an authenticated source, every target whose write succeeds receives the message, the source included |
| Broadcast.UnauthenticatedSourceReachesNobody | Server/Server.cs:362-365 | a source without a session reaches nobody |
| Broadcast.FailureIsolated | Server/Server.cs:355-372 | a write failure on one target changes nothing for the other targets |
| Broadcast.BroadcastRecipients | Server/Server.cs:351-374 | the recipients are exactly the targets that receive |
| Broadcast.BroadcastAll | Server/Server.cs:326-329 | only registered clients that receive are written to, each registered client that receives gets the message, and the message is the one given |
| Broadcast.ChannelTargets | Server/Server.cs:341-343 | the join yields exactly the clients whose session is a member of the channel; it throws when the channel has members and some client has no session |
| Broadcast.BroadcastChannel | Server/Server.cs:331-349 | a source without a session throws; every recipient is a member of the source's channel and receives under the `Broadcast` rules |
| Broadcast.ChannelBroadcastReachesMembers | Server/Server.cs:331-349 | when every client is authenticated, a channel broadcast with `includeSelf` reaches every reachable member of the source's channel |
| Text.NatToString | Server/Server.cs:147 | `int.ToString()` of a non-negative number is a non-empty string of decimal digits without leading zeros |
| Text.DecimalRoundTrip | Server/Server.cs:147 | reading the rendered digits back gives the number |
| Text.AnonName | Server/Server.cs:147 | an anonymous name is `Anon#` followed by digits, so it is never blank |
| Text.AnonNameInjective | Server/Server.cs:147 | distinct random numbers give distinct anonymous names |
| Handlers.DispatchTableShape | Server/Server.cs:110-124 | the table has a handler for exactly the eleven request types and none of the ten server-emitted types, and each type is routed to the handler written for it |
| Handlers.Dispatch | Server/Server.cs:87-95 | no handler runs exactly for the server-emitted types; a handler that runs keeps the state well formed and the registry unchanged, and writes only to registered clients |
| Handlers.Invoke | Server/Server.cs:128-282 | every handler keeps the state well formed and the registry unchanged, never reuses a connection id, and writes only to registered clients |
| Handlers.SetSession | Server/Server.cs:172 | the assignment gives client `h` the new session and leaves every other client, and the order of the registry, as it was |
| Handlers.OpenSession | Server/Server.cs:171-172 | the client gets a session with a never-issued id; every other client keeps its session, the handles stay, and the channels do not change |
| Handlers.ClientSessionElsewhere | Server/Server.cs:172 | assigning one client's session leaves the session every other client reads unchanged |
| Handlers.OpenSessionKeepsValid | Server/Server.cs:171-172 | the new session keeps the object graph well formed |
| Handlers.LoginSuccess | Server/Server.cs:168-181 | the new session has a never-issued id, is the client's, and records the id of the channel id 0 resolves to; it throws exactly when the client cannot be written to, or when there is no channel at all (before anything is written) |
| Handlers.LoginSuccessFrame | Server/Server.cs:168-181 | a login keeps the number of channels and adds exactly one membership: the new session is a member of the channel id 0 resolves to, and of no other. Earlier sessions are untouched, and only client `h`'s session changes |
| Handlers.Welcome | Server/Server.cs:175-180 | the `UserConnected` notice and the success response go only to registered clients, follow the earlier writes, and throw exactly when the client cannot be written to |
| Handlers.WelcomeInbox | Server/Server.cs:179-180 | the client's inbox gains its success response and nothing else |
| Handlers.LoginSuccessInbox | Server/Server.cs:175-180 | the logging-in client is not sent its own `UserConnected` notice, only the success response |
| Handlers.Reply | Server/Server.cs:180 | `client.WriteMessage` appends the write when the client can be written to; otherwise an exception escapes and nothing is written. The same call is at lines 188, 198, 267 and 272 |
| Handlers.FailReply | Server/Server.cs:183-189 | the failure response is written to the client, or an exception escapes when it cannot be |
| Handlers.FailReplyInbox | Server/Server.cs:159 | the failure response comes last in the client's inbox |
| Handlers.HandleCredentialRequest | Server/Server.cs:138-166 | the handler throws exactly when the client cannot be written to; otherwise its last write is the failure response, whatever came before |
| Handlers.AnonymousStep | Server/Server.cs:144-149 | the blank-username branch keeps the state well formed and the registry unchanged, and writes only to registered clients |
| Handlers.AuthenticatedStep | Server/Server.cs:151-156 | the authenticated branch keeps the same guarantees, whatever step it follows |
| Handlers.AnonymousLogin | Server/Server.cs:144-159 | a blank username that the user service rejects gets an `Anon#n` session. The session is a member of the channel id 0 resolves to, and of no other. The client reads a success response and then the failure response |
| Handlers.BlankAndAcceptedLogsInTwice | Server/Server.cs:144-159 | a blank username that the user service accepts runs both branches: two ids are issued, and the client ends up holding the second session, which has the stored username; the `Anon#n` session stays a channel member that no client holds |
| Handlers.BlankAndAcceptedInbox | Server/Server.cs:144-159 | in that case the client reads the anonymous success response, then the stored-username success response, then the failure response |
| Handlers.BothBranchesRun | Server/Server.cs:144-159 | in that case the anonymous login does not throw, so control reaches the authenticated login and then the failure write |
| Handlers.TwoLoginsState | Server/Server.cs:168-181 | after two logins the client holds the second session; the first keeps its name and its single membership, and no client holds it |
| Handlers.TwoLoginsThenFailInbox | Server/Server.cs:168-189 | two logins and then the failure write give the client both success responses and then the failure response |
| Handlers.LoginAgainThenFail | Server/Server.cs:168-189 | a second login and the failure write keep the earlier session and add its success response and then the failure response to the client's inbox |
| Handlers.LoginAgainInbox | Server/Server.cs:168-181 | a second login keeps the earlier session and appends its own success response to the client's inbox |
| Handlers.FirstLogin | Server/Server.cs:168-181 | a first login leaves a well-formed state with a channel, no exception, and the success response as the client's only read |
| Handlers.AuthenticatedLogin | Server/Server.cs:151-159 | accepted credentials get a session with the stored username. The session is a member of the channel id 0 resolves to, and of no other. The client reads a success response and then the failure response |
| Handlers.RejectedLogin | Server/Server.cs:151-159 | rejected credentials change nothing, and the failure response is the only write |
| Handlers.HandleChannelMessage | Server/Server.cs:128-136 | chat and voice relay the message unchanged and change no state; the handler throws exactly when the channel broadcast does |
| Handlers.HandleGetAllChannels | Server/Server.cs:196-199 | the requester alone is sent the current channel list |
| Handlers.HandleUserChangeChannel | Server/Server.cs:201-209 | a client without a session throws with nothing changed; a malformed target throws with nothing sent |
| Handlers.ChangeChannelMovesSession | Server/Server.cs:201-209 | a placed session moves to the channel the target resolves to; no membership is lost or duplicated |
| Handlers.ChangeChannelMalformedTarget | Server/Server.cs:203-206 | a malformed target throws only after the session has left its channel |
| Handlers.HandleCreateChannel | Server/Server.cs:211-218 | on success exactly one new empty channel, with the assigned id and the requested name, is appended; a service failure or a malformed payload changes nothing |
| Handlers.CreateChannelAnnounced | Server/Server.cs:211-218 | whatever id the request carries, an authenticated requester's new channel is announced to every reachable client; an unauthenticated requester's reaches nobody |
| Handlers.HandleRenameChannel | Server/Server.cs:220-232 | renaming never touches sessions or clients |
| Handlers.RenameUnknownChannel | Server/Server.cs:222-228 | an unknown id changes nothing and sends nothing |
| Handlers.RenameKnownChannel | Server/Server.cs:229-231 | a known id has only that channel's name changed, and only after the persistence call succeeds; a failure changes nothing |
| Handlers.RemoveChannelAt | Server/Server.cs:257 | removing a channel keeps the order of the others |
| Handlers.HandleDeleteChannel | Server/Server.cs:234-260 | deleting keeps the state well formed and the client registry unchanged |
| Handlers.DeleteRefused | Server/Server.cs:238-249 | the lobby id 1 and unknown ids change nothing and send nothing |
| Handlers.DeleteEvacuates | Server/Server.cs:251-259 | when the evacuation target is another channel, the channel is gone; its members are appended to the evacuation target and record its id; every other channel keeps its contents and order |
| Handlers.DeleteEmptyFallback | Server/Server.cs:251-259 | deleting the evacuation target itself while it is empty removes it without throwing, and leaves every session and membership as it was |
| Handlers.DeleteElsewhereConservesMembers | Server/Server.cs:251-257 | when the evacuation target is another channel, moving the members there and removing the channel loses no membership |
| Handlers.DeleteConservesMembers | Server/Server.cs:251-257 | when the evacuation target is another channel, or the deleted channel is empty, deletion loses no membership |
| Handlers.DeletedIdGone | Server/Server.cs:257 | with distinct channel ids, when the evacuation target is another channel or the deleted channel is empty, the deleted id is no longer found |
| Handlers.DeleteEvacuationTargetThrows | Server/Server.cs:253-256 | deleting the evacuation target while it has members re-adds the first member to it and throws, and the channel stays |
| Handlers.HandleCreateUser | Server/Server.cs:262-275 | the requester alone gets the service's success or failure; the state is unchanged |
| Handlers.HandleUserChangeStatus | Server/Server.cs:277-282 | only the requester's session status changes; a client without a session, or a malformed payload, throws with nothing changed |
| Connection.InitialServer | Server/Server.cs:40-46 | one empty channel session per stored channel, in the service's order; no clients and no memberships |
| Connection.Connect | Server/Server.cs:57-58 | the new client is appended to the registry without a session, and every other client's session lookup is unchanged |
| Connection.RemoveClient | Server/Server.cs:101 | the registry loses exactly the leaving client and stays free of duplicates |
| Connection.Cleanup | Server/Server.cs:98-104 | after the clean-up the registry is the old one minus the client; sessions are kept, nothing throws, and only registered clients are written to |
| Connection.CleanupSkipsSelf | Server/Server.cs:99 | the leaving client is not sent its own disconnect notice |
| Connection.CleanupNotifies | Server/Server.cs:99 | every other reachable client is told an authenticated client left |
| Connection.CleanupUnplaces | Server/Server.cs:104 | the leaving client's placed session ends up in no channel |
| Connection.RunLoop | Server/Server.cs:79-96 | the loop throws exactly when, following the run, a read fails or a handler throws on the state the loop has reached, before any read returns null |
| Connection.Resume | Server/Server.cs:79-96 | after a handler that threw the loop stops. Otherwise the writes made so far stay in front, and the loop throws exactly when a later read fails or a later handler throws before a null |
| Connection.StopsAtFirstNull | Server/Server.cs:79-85 | no input after the first null is ever read |
| Connection.HandledInOrder | Server/Server.cs:79-96 | reading `a` then `b` is the loop on `a` resumed with `b` |
| Connection.ServeKeeps | Server/Server.cs:79-96 | every pass of the loop keeps the state well formed and the registry unchanged, and writes only to registered clients |
| Connection.ReadLoop | Server/Server.cs:79-96 | the loop as a whole keeps those guarantees |
| Connection.UnregisteredSkipped | Server/Server.cs:87-93 | messages of unregistered types change nothing and send nothing; the loop throws only when a read fails before any read returns null |
| Connection.HandleConnectedClient | Server/Server.cs:77-108 | it throws exactly when a read fails or a dispatched handler throws before a null; then the client stays registered and the clean-up is skipped. Otherwise exactly the client leaves the registry |
| Connection.ReadFailureSkipsCleanup | Server/Server.cs:79-104 | a failed read ends the loop with the state and writes left by the messages read before it; the clean-up is skipped and the client stays registered |
| Connection.ConnectThenLeave | Server/Server.cs:57-104 | connecting and leaving without an escaping exception gives back the original set of registered clients |

## Left out

- The accept loop, `Task.Factory.StartNew` and `Parallel.ForEach` (Server/Server.cs:48-75, 353). These are concurrency, so fan-out is a sequential pass over the targets.
- Socket reads and writes, `IsConnected` and `Disconnect`. A connection's reads are a finite sequence of outcomes: a message, a null, or a read that throws. The loop also ends when the sequence runs out, which stands for `IsConnected` turning false. A failed write is membership in the set `unreachable`. `Disconnect` is assumed not to throw.
- `DatabaseService`, `ChannelService` and `UserService`. Their answers are the parameter `Oracle`:
  - the random suffix;
  - the authentication answer;
  - the id a created channel receives;
  - whether the persistence calls succeed.

  `InitDatabase` is not modelled. The following is assumed of the services:
  - `channelService.CreateChannel(name)` returns a channel with the requested name and the id it assigns.
  - `userService.GetUserByUsername` returns a non-null profile for a username that `IsUserAuthenticated` accepted. A throw from either call is the answer `AuthFailed`.
- Console logging, including the disconnect log line at Server/Server.cs:105-107, which dereferences `UserInfo`.
- `ChannelSession`, `UserSession`, `NetworkClient` and `Message` are not part of this model. The following is assumed of them:
  - `AddUser` sets the session's `ChannelId` and then appends it. So `AddUser(null)` throws before the member list changes, and a channel-change request from a client without a session leaves the channels as they were.
  - `RemoveUser` removes the first occurrence and ignores null.
  - `UserSessions` is a `List`, whose enumerator throws once the list changes.
  - `GetData<T>` and the `(int)` cast throw on a payload of the wrong shape.
- The text fields of `UserCredentialResponse` and `SimpleResponse` beyond the credential texts. `UserInfo` is reduced to a username and `UserStatus` to an integer.
- Broadcast.BroadcastChannel: the join is taken to read `client.UserSession` only when the channel has members, as the .NET Core implementation of `Join` does. An implementation that reads it even for an empty channel would also throw there.
- Connection.RemoveClient: requires a registry without duplicate clients. The well-formedness invariant guarantees this, and `List.Remove` then removes the only occurrence.
- Handlers.HandleDeleteChannel: its own contract states only the general guarantees. DeleteRefused, DeleteEvacuates, DeleteEmptyFallback, DeleteConservesMembers, DeletedIdGone and DeleteEvacuationTargetThrows state what it does.
- Handlers.HandleRenameChannel: its own contract states only the general guarantees. RenameUnknownChannel and RenameKnownChannel state what it does.
- Handlers.HandleUserChangeChannel: its own contract states only the general guarantees and the error paths. ChangeChannelMovesSession and ChangeChannelMalformedTarget state what it does.

=== FILE: broadcast.dfy ===
/** Recipient selection of `Broadcast`, `BroadcastAll` and `BroadcastChannel`
    (Server/Server.cs:326-374). The parallel fan-out is modelled as a
    sequential pass over the targets; delivery order across targets carries
    no meaning. A write to a client in `unreachable` throws. */
module Broadcast {
  import opened Model

  /** Whether target `c` ends up receiving the message: it is not the
      excluded source, the source's session can be read for the log line,
      and the write to `c` succeeds. */
  ghost predicate Receives(s: Server, source: ClientId, c: ClientId, includeSelf: bool, unreachable: set<ClientId>) {
    && (includeSelf || c != source)
    && ClientSession(s.clients, source).Some?
    && c !in unreachable
  }

  /** `Broadcast(sourceClient, targetClients, message, includeSelf)`: every
      target is tried on its own, and an exception on one is caught there. */
  function Broadcast(s: Server, source: ClientId, targets: seq<ClientId>, includeSelf: bool, unreachable: set<ClientId>): (delivered: seq<ClientId>)
    ensures forall c :: multiset(delivered)[c] == if Receives(s, source, c, includeSelf, unreachable) then multiset(targets)[c] else 0
  {
    if |targets| == 0 then []
    else
      var c := targets[0];
      var rest := Broadcast(s, source, targets[1..], includeSelf, unreachable);
      assert targets == [c] + targets[1..];
      if !includeSelf && source == c then rest                   // skipped
      else if ClientSession(s.clients, source).None? then rest   // source.UserSession is null: caught
      else if c in unreachable then rest                         // WriteMessage threw: caught
      else [c] + rest
  }

  /** With `includeSelf = false` the source never gets its own message. */
  lemma NeverEchoes(s: Server, source: ClientId, targets: seq<ClientId>, unreachable: set<ClientId>)
    ensures source !in Broadcast(s, source, targets, false, unreachable)
  {
    var d := Broadcast(s, source, targets, false, unreachable);
    assert source !in multiset(d);
  }

  /** With `includeSelf = true` and an authenticated source, every target whose
      connection accepts the write receives the message, the source included. */
  lemma IncludeSelfReachesAll(s: Server, source: ClientId, targets: seq<ClientId>, unreachable: set<ClientId>)
    requires ClientSession(s.clients, source).Some?
    ensures forall c :: c in targets && c !in unreachable ==> c in Broadcast(s, source, targets, true, unreachable)
  {
    var d := Broadcast(s, source, targets, true, unreachable);
    forall c | c in targets && c !in unreachable
      ensures c in d
    {
      assert multiset(targets)[c] > 0;
      assert multiset(d)[c] > 0;
    }
  }

  /** A source without a session reaches nobody: line 364 throws for every
      target it does not skip. */
  lemma UnauthenticatedSourceReachesNobody(s: Server, source: ClientId, targets: seq<ClientId>, includeSelf: bool, unreachable: set<ClientId>)
    requires ClientSession(s.clients, source).None?
    ensures Broadcast(s, source, targets, includeSelf, unreachable) == []
  {
    var d := Broadcast(s, source, targets, includeSelf, unreachable);
    assert multiset(d) == multiset{};
  }

  /** A write failure on one target changes nothing for the other targets. */
  lemma FailureIsolated(s: Server, source: ClientId, targets: seq<ClientId>, includeSelf: bool, unreachable: set<ClientId>, x: ClientId)
    ensures x !in Broadcast(s, source, targets, includeSelf, unreachable + {x})
    ensures forall c :: c != x ==>
      multiset(Broadcast(s, source, targets, includeSelf, unreachable + {x}))[c]
        == multiset(Broadcast(s, source, targets, includeSelf, unreachable))[c]
  {
    var d := Broadcast(s, source, targets, includeSelf, unreachable + {x});
    assert x !in multiset(d);
  }

  /** Set-level reading of `Broadcast`'s contract: the recipients are exactly
      the targets that receive. */
  lemma BroadcastRecipients(s: Server, source: ClientId, targets: seq<ClientId>, includeSelf: bool, unreachable: set<ClientId>)
    ensures forall c :: c in Broadcast(s, source, targets, includeSelf, unreachable)
              <==> c in targets && Receives(s, source, c, includeSelf, unreachable)
  {
    var d := Broadcast(s, source, targets, includeSelf, unreachable);
    forall c ensures c in d <==> c in targets && Receives(s, source, c, includeSelf, unreachable) {
      assert c in d <==> c in multiset(d);
      assert c in targets <==> c in multiset(targets);
    }
  }

  /** One delivery of `msg` per recipient, in order. */
  function Deliver(msg: Message, recipients: seq<ClientId>): (r: seq<Delivery>)
    ensures |r| == |recipients|
    ensures forall i :: 0 <= i < |r| ==> r[i] == Delivery(recipients[i], msg)
  {
    if |recipients| == 0 then [] else [Delivery(recipients[0], msg)] + Deliver(msg, recipients[1..])
  }

  lemma DeliverContains(msg: Message, d: seq<ClientId>)
    ensures forall c :: c in d <==> Delivery(c, msg) in Deliver(msg, d)
    ensures forall i :: 0 <= i < |d| ==> Deliver(msg, d)[i].to in d
  {
    var r := Deliver(msg, d);
    forall c | c in d ensures Delivery(c, msg) in r {
      var i :| 0 <= i < |d| && d[i] == c;
      assert r[i] == Delivery(c, msg);
    }
  }

  /** `BroadcastAll`: the targets are all of `connectedClients`. */
  function BroadcastAll(s: Server, source: ClientId, msg: Message, includeSelf: bool, unreachable: set<ClientId>): (r: seq<Delivery>)
    ensures forall i :: 0 <= i < |r| ==> r[i].msg == msg
    ensures forall i :: 0 <= i < |r| ==> Receives(s, source, r[i].to, includeSelf, unreachable) && r[i].to in Handles(s.clients)
    ensures forall c :: c in Handles(s.clients) && Receives(s, source, c, includeSelf, unreachable) ==> Delivery(c, msg) in r
  {
    var targets := Handles(s.clients);
    var d := Broadcast(s, source, targets, includeSelf, unreachable);
    BroadcastRecipients(s, source, targets, includeSelf, unreachable);
    var r := Deliver(msg, d);
    DeliverContains(msg, d);
    r
  }

  /** `Enumerable.Count` of one id in a member list. */
  function Count(ms: seq<ConnId>, cid: ConnId): (n: nat)
    ensures n == multiset(ms)[cid]
  {
    if |ms| == 0 then 0
    else
      assert ms == [ms[0]] + ms[1..];
      (if ms[0] == cid then 1 else 0) + Count(ms[1..], cid)
  }

  /** `n` copies of `h`. */
  function Repeat(h: ClientId, n: nat): (r: seq<ClientId>)
    ensures |r| == n && forall i :: 0 <= i < n ==> r[i] == h
  {
    if n == 0 then [] else [h] + Repeat(h, n - 1)
  }

  /** Whether some client in `cs` holds a session listed in `members`. */
  ghost predicate InChannel(cs: seq<NetworkClient>, members: seq<ConnId>, c: ClientId) {
    exists i :: 0 <= i < |cs| && cs[i].handle == c && cs[i].session.Some? && cs[i].session.value in members
  }

  /** The LINQ join of `connectedClients` with a channel's members on the
      connection id (lines 341-343). The join reads `client.UserSession` of
      every client once the member list is non-empty, so a client without a
      session throws (None). */
  function ChannelTargets(cs: seq<NetworkClient>, members: seq<ConnId>): (r: Option<seq<ClientId>>)
    ensures r.None? <==> |members| > 0 && exists i :: 0 <= i < |cs| && cs[i].session.None?
    ensures r.Some? ==> forall c :: c in r.value <==> InChannel(cs, members, c)
    decreases |cs|
  {
    if |members| == 0 then Some([])
    else if |cs| == 0 then Some([])
    else match cs[0].session
      case None => None
      case Some(cid) =>
        match ChannelTargets(cs[1..], members)
        case None => None
        case Some(rest) =>
          var r := Repeat(cs[0].handle, Count(members, cid)) + rest;
          assert forall c :: c in r <==> InChannel(cs, members, c) by {
            forall c ensures c in r <==> InChannel(cs, members, c) {
              if c in rest {
                var i :| 0 <= i < |cs[1..]| && cs[1..][i].handle == c && cs[1..][i].session.Some? && cs[1..][i].session.value in members;
                assert cs[i + 1].handle == c;
              }
              if c == cs[0].handle && cid in members {
                assert multiset(members)[cid] > 0;
                assert r[0] == c;
              }
              if InChannel(cs, members, c) {
                var i :| 0 <= i < |cs| && cs[i].handle == c && cs[i].session.Some? && cs[i].session.value in members;
                if i == 0 {
                  assert multiset(members)[cid] > 0;
                  assert r[0] == c;
                } else {
                  assert cs[1..][i - 1] == cs[i];
                }
              }
            }
          }
          Some(r)
  }

  /** `BroadcastChannel`: the source's own channel, looked up by its session's
      `ChannelId`. None when an exception escapes: the source has no session
      (line 333) or the join throws. */
  function BroadcastChannel(s: Server, source: ClientId, msg: Message, includeSelf: bool, unreachable: set<ClientId>): (r: Option<seq<Delivery>>)
    requires Valid(s)
    ensures ClientSession(s.clients, source).None? ==> r.None?
    ensures r.Some? ==> forall i :: 0 <= i < |r.value| ==> r.value[i].msg == msg
    ensures r.Some? ==> forall i :: 0 <= i < |r.value| ==>
      var cid := ClientSession(s.clients, source).value;
      var f := FindChannel(s.channels, s.sessions[cid].channelId);
      && f.Some?
      && InChannel(s.clients, s.channels[f.value].members, r.value[i].to)
      && Receives(s, source, r.value[i].to, includeSelf, unreachable)
  {
    match ClientSession(s.clients, source)
    case None => None
    case Some(cid) =>
      match FindChannel(s.channels, s.sessions[cid].channelId)
      case None => Some([])
      case Some(i) =>
        match ChannelTargets(s.clients, s.channels[i].members)
        case None => None
        case Some(ts) =>
          if |ts| == 0 then Some([])
          else
            var d := Broadcast(s, source, ts, includeSelf, unreachable);
            BroadcastRecipients(s, source, ts, includeSelf, unreachable);
            DeliverContains(msg, d);
            Some(Deliver(msg, d))
  }

  /** A channel broadcast with `includeSelf = true` from an authenticated client
      reaches every reachable client whose session is a member of the source's
      channel, provided every connected client is authenticated. */
  lemma ChannelBroadcastReachesMembers(s: Server, source: ClientId, msg: Message, unreachable: set<ClientId>, c: ClientId)
    requires Valid(s)
    requires ClientSession(s.clients, source).Some?
    requires forall i :: 0 <= i < |s.clients| ==> s.clients[i].session.Some?
    requires var f := FindChannel(s.channels, s.sessions[ClientSession(s.clients, source).value].channelId);
      f.Some? && InChannel(s.clients, s.channels[f.value].members, c)
    requires c !in unreachable
    ensures BroadcastChannel(s, source, msg, true, unreachable).Some?
    ensures Delivery(c, msg) in BroadcastChannel(s, source, msg, true, unreachable).value
  {
    var cid := ClientSession(s.clients, source).value;
    var f := FindChannel(s.channels, s.sessions[cid].channelId).value;
    var ts := ChannelTargets(s.clients, s.channels[f].members).value;
    assert c in ts;
    IncludeSelfReachesAll(s, source, ts, unreachable);
    var d := Broadcast(s, source, ts, true, unreachable);
    var k :| 0 <= k < |d| && d[k] == c;
    assert Deliver(msg, d)[k] == Delivery(c, msg);
  }
}

=== FILE: connection.dfy ===
/** The life of one connection (Server/Server.cs:27-46, 57-58, 77-108):
    the initial state, registering an accepted client, the read loop that
    dispatches each message, and the clean-up after the loop. Reads and the
    socket are replaced by the sequence of values `ReadMessage` returns. */
module Connection {
  import opened Model
  import opened Store
  import opened Broadcast
  import opened Handlers

  /** A channel as `channelService.GetAllChannels` returns it. */
  datatype StoredChannel = StoredChannel(id: ChannelId, name: string)

  /** One non-null `ReadMessage` result, with what the services answer while
      its handler runs. */
  datatype Incoming = Incoming(msg: Message, env: Oracle)

  /** What one `client.ReadMessage()` call at line 81 does: return null, return
      a message, or throw. The call is outside any `try`, so a throw escapes
      the loop like a handler's exception. */
  datatype Read = Null | Got(m: Incoming) | ReadFailed

  /** `InitDefaultChannels` on a fresh server: one empty channel session per
      stored channel, in the order the service lists them, and no clients. */
  function InitialServer(stored: seq<StoredChannel>): (s: Server)
    ensures Valid(s) && s.clients == [] && s.sessions == map[]
    ensures |s.channels| == |stored|
    ensures forall i :: 0 <= i < |stored| ==> s.channels[i] == ChannelSession(stored[i].id, stored[i].name, [])
    ensures AllMembers(s.channels) == multiset{}
  {
    var chs := seq(|stored|, i requires 0 <= i < |stored| => ChannelSession(stored[i].id, stored[i].name, []));
    NoMembers(chs);
    Server(chs, [], map[], 0)
  }

  lemma {:induction false} NoMembers(cs: seq<ChannelSession>)
    requires forall i :: 0 <= i < |cs| ==> cs[i].members == []
    ensures AllMembers(cs) == multiset{}
    decreases |cs|
  {
    if |cs| > 0 {
      NoMembers(cs[1..]);
    }
  }

  /** `connectedClients.Add(client)` for a newly accepted client object, which
      has no session yet. */
  function Connect(s: Server, h: ClientId): (r: Server)
    requires Valid(s) && h !in Handles(s.clients)
    ensures Valid(r)
    ensures Handles(r.clients) == Handles(s.clients) + [h]
    ensures ClientSession(r.clients, h).None?
    ensures forall c :: c != h ==> ClientSession(r.clients, c) == ClientSession(s.clients, c)
    ensures r.channels == s.channels && r.sessions == s.sessions && r.issued == s.issued
  {
    var cs := s.clients + [NetworkClient(h, None)];
    assert Handles(cs) == Handles(s.clients) + [h];
    ClientSessionAppend(s.clients, NetworkClient(h, None));
    assert DistinctHandles(cs) by {
      forall i, j | 0 <= i < j < |cs| ensures cs[i].handle != cs[j].handle {
        if j == |s.clients| {
          assert Handles(s.clients)[i] == cs[i].handle;
        }
      }
    }
    s.(clients := cs)
  }

  /** Appending a client changes no earlier client's session lookup. */
  lemma {:induction false} ClientSessionAppend(cs: seq<NetworkClient>, c: NetworkClient)
    requires c.handle !in Handles(cs)
    ensures ClientSession(cs + [c], c.handle) == c.session
    ensures forall h :: h != c.handle ==> ClientSession(cs + [c], h) == ClientSession(cs, h)
    decreases |cs|
  {
    if |cs| > 0 {
      assert c.handle != Handles(cs)[0];
      assert Handles(cs[1..]) == Handles(cs)[1..];
      ClientSessionAppend(cs[1..], c);
      assert (cs + [c])[1..] == cs[1..] + [c];
    }
  }

  /** Handles of a registry with one client in front. */
  lemma ConsHandles(x: NetworkClient, t: seq<NetworkClient>)
    ensures forall c :: c in Handles([x] + t) <==> c == x.handle || c in Handles(t)
    ensures DistinctHandles(t) && x.handle !in Handles(t) ==> DistinctHandles([x] + t)
  {
    var cs := [x] + t;
    assert Handles(cs) == [x.handle] + Handles(t) by {
      forall i | 0 <= i < |cs| ensures Handles(cs)[i] == ([x.handle] + Handles(t))[i] {
        if i > 0 {
          assert cs[i] == t[i - 1];
        }
      }
    }
    if DistinctHandles(t) && x.handle !in Handles(t) {
      forall i, j | 0 <= i < j < |cs| ensures cs[i].handle != cs[j].handle {
        if i == 0 {
          assert Handles(t)[j - 1] == cs[j].handle;
        } else {
          assert cs[i] == t[i - 1] && cs[j] == t[j - 1];
        }
      }
    }
  }

  /** In a registry without duplicates, the first client's object does not
      occur again. */
  lemma HeadUnique(cs: seq<NetworkClient>)
    requires DistinctHandles(cs) && |cs| > 0
    ensures DistinctHandles(cs[1..]) && cs[0].handle !in Handles(cs[1..])
    ensures forall c :: c in Handles(cs) <==> c == cs[0].handle || c in Handles(cs[1..])
  {
    assert cs == [cs[0]] + cs[1..];
    ConsHandles(cs[0], cs[1..]);
  }

  /** `connectedClients.Remove(client)`: the first occurrence goes; in a
      registry without duplicates that is the only one. */
  function RemoveClient(cs: seq<NetworkClient>, h: ClientId): (r: seq<NetworkClient>)
    requires DistinctHandles(cs)
    ensures forall i :: 0 <= i < |r| ==> r[i] in cs
    ensures DistinctHandles(r)
    ensures forall c :: c in Handles(r) <==> c in Handles(cs) && c != h
    decreases |cs|
  {
    if |cs| == 0 then []
    else
      HeadUnique(cs);
      if cs[0].handle == h then cs[1..]
      else
        var rest := RemoveClient(cs[1..], h);
        ConsHandles(cs[0], rest);
        [cs[0]] + rest
  }

  /** The clean-up after the loop (lines 98-104): everyone else is told the
      client left, then the client is dropped from the registry and its
      session from its channel. */
  function Cleanup(s: Server, h: ClientId, unreachable: set<ClientId>): (r: Step)
    requires Valid(s) && h in Handles(s.clients)
    ensures Valid(r.state) && !r.threw
    ensures forall c :: c in Handles(r.state.clients) <==> c in Handles(s.clients) && c != h
    ensures r.state.sessions == s.sessions && r.state.issued == s.issued
    ensures SentTo(r.sent, Handles(s.clients))
  {
    var session := ClientSession(s.clients, h);
    var notice := BroadcastAll(s, h, Message(UserDisconnected, SessionData(Snapshot(s, session))), false, unreachable);
    var cs := RemoveClient(s.clients, h);
    var s1 := s.(clients := cs);
    assert Valid(s1) by {
      forall i | 0 <= i < |cs| && cs[i].session.Some? ensures cs[i].session.value in s.sessions {
        var k :| 0 <= k < |s.clients| && s.clients[k] == cs[i];
      }
    }
    RemoveUserKeepsValid(s1, session);
    Step(RemoveUserFromChannel(s1, session), notice, false)
  }

  /** The leaving client is not sent its own disconnect notice. */
  lemma CleanupSkipsSelf(s: Server, h: ClientId, unreachable: set<ClientId>)
    requires Valid(s) && h in Handles(s.clients)
    ensures Inbox(Cleanup(s, h, unreachable).sent, h) == []
  {
  }

  /** When the leaving client had a session, every other reachable client is
      told it left. */
  lemma CleanupNotifies(s: Server, h: ClientId, unreachable: set<ClientId>)
    requires Valid(s) && h in Handles(s.clients) && ClientSession(s.clients, h).Some?
    ensures var notice := Message(UserDisconnected, SessionData(Snapshot(s, ClientSession(s.clients, h))));
      forall c :: c in Handles(s.clients) && c != h && c !in unreachable ==> Delivery(c, notice) in Cleanup(s, h, unreachable).sent
  {
  }

  /** After clean-up, the leaving client's placed session is in no channel. */
  lemma CleanupUnplaces(s: Server, h: ClientId, unreachable: set<ClientId>)
    requires Valid(s) && h in Handles(s.clients)
    requires ClientSession(s.clients, h).Some? && Placed(s, ClientSession(s.clients, h).value)
    ensures ClientSession(s.clients, h).value !in AllMembers(Cleanup(s, h, unreachable).state.channels)
  {
    RemoveUnplaces(s.(clients := RemoveClient(s.clients, h)), ClientSession(s.clients, h).value);
  }

  /** The loop of `HandleConnectedClient` (lines 79-96) for a given way of
      handling one message: `inputs` are the outcomes of the `ReadMessage`
      calls, and the loop also ends when they run out (`IsConnected` turning
      false). A null ends the loop normally and a failed read ends it with an
      escaping exception. `handle` answers None when no handler is registered
      for the type, and the message is skipped; a handler that threw ends the
      loop at once. So the loop throws exactly when, along the run, a read
      fails or a handler throws before any read returns null. */
  function RunLoop(handle: (Server, Incoming) -> Option<Step>, s: Server, inputs: seq<Read>): (r: Step)
    ensures r.threw <==> FailsBeforeNull(inputs) || HandlerThrew(handle, s, inputs)
    ensures NoFailedRead(inputs) && NeverThrows(handle) ==> !r.threw
    decreases |inputs|, 0
  {
    if |inputs| == 0 then Step(s, [], false)
    else match inputs[0]
      case Null => Step(s, [], false)
      case ReadFailed => Step(s, [], true)
      case Got(m) =>
        match handle(s, m)
        case None => RunLoop(handle, s, inputs[1..])
        case Some(st) => Resume(handle, st, inputs[1..])
  }

  /** The rest of the loop after a handler returned `st`: stop if it threw,
      otherwise keep reading from the state it left. */
  function Resume(handle: (Server, Incoming) -> Option<Step>, st: Step, inputs: seq<Read>): (r: Step)
    ensures st.threw ==> r == st
    ensures |st.sent| <= |r.sent| && r.sent[..|st.sent|] == st.sent
    ensures !st.threw ==> (r.threw <==> FailsBeforeNull(inputs) || HandlerThrew(handle, st.state, inputs))
    ensures !st.threw && NoFailedRead(inputs) && NeverThrows(handle) ==> !r.threw
    decreases |inputs|, 1
  {
    if st.threw then st
    else
      var rest := RunLoop(handle, st.state, inputs);
      Step(rest.state, st.sent + rest.sent, rest.threw)
  }

  /** Some read throws before any read returns null. */
  predicate FailsBeforeNull(inputs: seq<Read>)
    decreases |inputs|
  {
    |inputs| > 0 && (inputs[0].ReadFailed? || (inputs[0].Got? && FailsBeforeNull(inputs[1..])))
  }

  /** Following the run from `s`, some handler call throws before a read
      returns null or fails: each message is handed to `handle` in the state
      the previous handlers left. */
  predicate HandlerThrew(handle: (Server, Incoming) -> Option<Step>, s: Server, inputs: seq<Read>)
    decreases |inputs|
  {
    && |inputs| > 0 && inputs[0].Got?
    && match handle(s, inputs[0].m)
       case None => HandlerThrew(handle, s, inputs[1..])
       case Some(st) => st.threw || HandlerThrew(handle, st.state, inputs[1..])
  }

  /** No read in `inputs` throws. */
  predicate NoFailedRead(inputs: seq<Read>) {
    forall i :: 0 <= i < |inputs| ==> !inputs[i].ReadFailed?
  }

  /** No handler `handle` runs ever throws. */
  ghost predicate NeverThrows(handle: (Server, Incoming) -> Option<Step>) {
    forall s, m :: handle(s, m).Some? ==> !handle(s, m).value.threw
  }

  /** Whatever follows the first null is never read. */
  lemma {:induction false} StopsAtFirstNull(handle: (Server, Incoming) -> Option<Step>, s: Server, inputs: seq<Read>, k: nat)
    requires k < |inputs| && inputs[k].Null?
    ensures RunLoop(handle, s, inputs) == RunLoop(handle, s, inputs[..k])
    decreases k
  {
    if k > 0 && inputs[0].Got? {
      assert inputs[1..][..k - 1] == inputs[..k][1..];
      match handle(s, inputs[0].m)
      case None => StopsAtFirstNull(handle, s, inputs[1..], k - 1);
      case Some(st) =>
        if !st.threw {
          StopsAtFirstNull(handle, st.state, inputs[1..], k - 1);
        }
    }
  }

  /** Messages are handled in order: reading `a` and then `b` is running the
      loop on `a` and resuming from where it stopped with `b`. */
  lemma {:induction false} HandledInOrder(handle: (Server, Incoming) -> Option<Step>, s: Server, a: seq<Read>, b: seq<Read>)
    requires forall i :: 0 <= i < |a| ==> a[i].Got?
    ensures RunLoop(handle, s, a + b) == Resume(handle, RunLoop(handle, s, a), b)
    decreases |a|
  {
    if |a| == 0 {
      assert a + b == b;
      var rb := RunLoop(handle, s, b);
      assert [] + rb.sent == rb.sent;
    } else {
      assert (a + b)[1..] == a[1..] + b;
      match handle(s, a[0].m)
      case None => HandledInOrder(handle, s, a[1..], b);
      case Some(st) =>
        if !st.threw {
          HandledInOrder(handle, st.state, a[1..], b);
          var ra := RunLoop(handle, st.state, a[1..]);
          if !ra.threw {
            var rb := RunLoop(handle, ra.state, b);
            assert st.sent + (ra.sent + rb.sent) == (st.sent + ra.sent) + rb.sent;
          }
        }
    }
  }

  /** Handling one message on behalf of client `h`: the dispatch table. The
      `else` branch is never taken from `ReadLoop`, which starts from a
      well-formed state with `h` registered, and every handler keeps both
      (`ServeKeeps`); it is not behaviour of the server. */
  function Serve(h: ClientId, unreachable: set<ClientId>): (r: (Server, Incoming) -> Option<Step>) {
    (s: Server, m: Incoming) =>
      if Valid(s) && h in Handles(s.clients) then Dispatch(s, h, m.msg, m.env, unreachable) else None
  }

  /** Every pass of the loop keeps the state well formed and the registry
      unchanged, and writes only to registered clients. */
  lemma {:induction false} ServeKeeps(s: Server, h: ClientId, inputs: seq<Read>, unreachable: set<ClientId>)
    requires Valid(s) && h in Handles(s.clients)
    ensures Keeps(s, RunLoop(Serve(h, unreachable), s, inputs))
    decreases |inputs|
  {
    if |inputs| > 0 && inputs[0].Got? {
      var m := inputs[0].m;
      match Dispatch(s, h, m.msg, m.env, unreachable)
      case None => ServeKeeps(s, h, inputs[1..], unreachable);
      case Some(st) =>
        if !st.threw {
          ServeKeeps(st.state, h, inputs[1..], unreachable);
          SentToAppend(st.sent, RunLoop(Serve(h, unreachable), st.state, inputs[1..]).sent, Handles(s.clients));
        }
    }
  }

  /** The server's read loop for client `h`. */
  function ReadLoop(s: Server, h: ClientId, inputs: seq<Read>, unreachable: set<ClientId>): (r: Step)
    requires Valid(s) && h in Handles(s.clients)
    ensures Keeps(s, r)
  {
    ServeKeeps(s, h, inputs, unreachable);
    RunLoop(Serve(h, unreachable), s, inputs)
  }

  /** Messages no handler is registered for change nothing and send nothing;
      the loop throws only if a read does. */
  lemma {:induction false} UnregisteredSkipped(s: Server, h: ClientId, inputs: seq<Read>, unreachable: set<ClientId>)
    requires Valid(s) && h in Handles(s.clients)
    requires forall i :: 0 <= i < |inputs| && inputs[i].Got? ==> IsServerMessage(inputs[i].m.msg.kind)
    ensures ReadLoop(s, h, inputs, unreachable) == Step(s, [], FailsBeforeNull(inputs))
    decreases |inputs|
  {
    if |inputs| > 0 && inputs[0].Got? {
      UnregisteredSkipped(s, h, inputs[1..], unreachable);
    }
  }

  /** `HandleConnectedClient`: the loop, then the clean-up unless a handler
      threw. An escaping exception is caught by the `StartNew` action at
      line 66, so the clean-up never runs and the client stays registered. */
  function HandleConnectedClient(s: Server, h: ClientId, inputs: seq<Read>, unreachable: set<ClientId>): (r: Step)
    requires Valid(s) && h in Handles(s.clients)
    ensures Valid(r.state) && SentTo(r.sent, Handles(s.clients))
    ensures r.threw <==> ReadLoop(s, h, inputs, unreachable).threw
    ensures r.threw <==> FailsBeforeNull(inputs) || HandlerThrew(Serve(h, unreachable), s, inputs)
    ensures r.threw ==> Handles(r.state.clients) == Handles(s.clients)
    ensures !r.threw ==> forall c :: c in Handles(r.state.clients) <==> c in Handles(s.clients) && c != h
  {
    var loop := ReadLoop(s, h, inputs, unreachable);
    if loop.threw then loop
    else
      var done := Cleanup(loop.state, h, unreachable);
      SentToAppend(loop.sent, done.sent, Handles(s.clients));
      Step(done.state, loop.sent + done.sent, false)
  }

  /** A read that throws ends the loop with the state and writes of the
      messages read before it, and, since the exception escapes to line 66,
      the clean-up is skipped and the client stays registered. */
  lemma ReadFailureSkipsCleanup(s: Server, h: ClientId, a: seq<Read>, b: seq<Read>, unreachable: set<ClientId>)
    requires Valid(s) && h in Handles(s.clients)
    requires forall i :: 0 <= i < |a| ==> a[i].Got?
    ensures var r := HandleConnectedClient(s, h, a + [ReadFailed] + b, unreachable);
      var before := ReadLoop(s, h, a, unreachable);
      && r.threw
      && r.state == before.state && r.sent == before.sent
      && Handles(r.state.clients) == Handles(s.clients)
  {
    assert a + [ReadFailed] + b == a + ([ReadFailed] + b);
    HandledInOrder(Serve(h, unreachable), s, a, [ReadFailed] + b);
    var before := ReadLoop(s, h, a, unreachable);
    if !before.threw {
      assert before.sent + [] == before.sent;
    }
  }

  /** A client that connects and leaves without an escaping exception leaves
      the registry holding the same client objects as before it connected. */
  lemma ConnectThenLeave(s: Server, h: ClientId, inputs: seq<Read>, unreachable: set<ClientId>)
    requires Valid(s) && h !in Handles(s.clients)
    requires !ReadLoop(Connect(s, h), h, inputs, unreachable).threw
    ensures forall c :: c in Handles(HandleConnectedClient(Connect(s, h), h, inputs, unreachable).state.clients) <==> c in Handles(s.clients)
  {
  }
}

=== FILE: handlers.dfy ===
/** The message handlers of Server/Server.cs:128-282 and the dispatch table
    built by `InitMessageHandlers` (lines 110-124).

    A handler maps the state, the requesting client, the message and the
    answers of the external services to a `Step`. `threw` is set when an
    exception escapes the handler; state changes made before the throw stay.
    `message.GetData<T>()` and the `(int)` cast are taken to throw when the
    payload has another shape. */
module Handlers {
  import opened Model
  import opened Text
  import opened Store
  import opened Broadcast

  /** `new Random().Next(10000)`. */
  type AnonSuffix = n: nat | n < 10000

  /** `userService.IsUserAuthenticated` followed by `GetUserByUsername`:
      accepted with the stored username, rejected, or one of them threw. */
  datatype AuthAnswer = Accepted(profileName: string) | Rejected | AuthFailed

  /** What the external services answer while one message is handled:
      the random suffix, the authentication service, the id
      `channelService.CreateChannel` assigns (None: it threw), and whether
      `UpdateChannel` / `DeleteChannel` / `CreateUser` succeed. */
  datatype Oracle = Oracle(anonSuffix: AnonSuffix, auth: AuthAnswer, createdId: Option<ChannelId>, persisted: bool)

  datatype Handler =
    | ChatHandler | VoiceHandler | CredentialRequestHandler | HelloHandler
    | GetAllChannelsRequestHandler | UserChangeChannelRequestHandler
    | CreateChannelRequestHandler | RenameChannelRequestHandler
    | DeleteChannelRequestHandler | CreateUserRequestHandler
    | UserChangeStatusRequestHandler

  /** `messageHandlers` after `InitMessageHandlers`. */
  const MessageHandlers: map<MessageType, Handler> := map[
    Chat := ChatHandler,
    Voice := VoiceHandler,
    CredentialRequest := CredentialRequestHandler,
    Hello := HelloHandler,
    GetAllChannelsRequest := GetAllChannelsRequestHandler,
    UserChangeChannelRequest := UserChangeChannelRequestHandler,
    CreateChannelRequest := CreateChannelRequestHandler,
    RenameChannelRequest := RenameChannelRequestHandler,
    DeleteChannelRequest := DeleteChannelRequestHandler,
    CreateUserRequest := CreateUserRequestHandler,
    UserChangeStatusRequest := UserChangeStatusRequestHandler]

  /** The message types only the server emits. */
  predicate IsServerMessage(t: MessageType) {
    match t
    case CredentialResponse | GetAllChannelsResponse | UserChangeChannelResponse
       | CreateChannelResponse | RenameChannelResponse | DeleteChannelResponse
       | CreateUserResponse | UserChangeStatusResponse | UserConnected | UserDisconnected => true
    case _ => false
  }

  /** The request type each handler is written for. */
  function HandledType(handler: Handler): (t: MessageType) {
    match handler
    case ChatHandler => Chat
    case VoiceHandler => Voice
    case CredentialRequestHandler => CredentialRequest
    case HelloHandler => Hello
    case GetAllChannelsRequestHandler => GetAllChannelsRequest
    case UserChangeChannelRequestHandler => UserChangeChannelRequest
    case CreateChannelRequestHandler => CreateChannelRequest
    case RenameChannelRequestHandler => RenameChannelRequest
    case DeleteChannelRequestHandler => DeleteChannelRequest
    case CreateUserRequestHandler => CreateUserRequest
    case UserChangeStatusRequestHandler => UserChangeStatusRequest
  }

  /** The table handles exactly the types the server does not emit itself,
      and routes each to the handler written for it, so no two types share a
      handler. */
  lemma DispatchTableShape()
    ensures forall t :: t in MessageHandlers <==> !IsServerMessage(t)
    ensures forall t :: t in MessageHandlers ==> HandledType(MessageHandlers[t]) == t
  {
    forall t ensures (t in MessageHandlers <==> !IsServerMessage(t)) && (t in MessageHandlers ==> HandledType(MessageHandlers[t]) == t) {
      match t
      case Chat =>
      case Voice =>
      case Hello =>
      case CredentialRequest =>
      case CredentialResponse =>
      case GetAllChannelsRequest =>
      case GetAllChannelsResponse =>
      case UserChangeChannelRequest =>
      case UserChangeChannelResponse =>
      case CreateChannelRequest =>
      case CreateChannelResponse =>
      case RenameChannelRequest =>
      case RenameChannelResponse =>
      case DeleteChannelRequest =>
      case DeleteChannelResponse =>
      case CreateUserRequest =>
      case CreateUserResponse =>
      case UserChangeStatusRequest =>
      case UserChangeStatusResponse =>
      case UserConnected =>
      case UserDisconnected =>
    }
  }

  /** What every handler keeps: a well-formed state, the same client
      registry, no reuse of connection ids, and writes only to registered
      clients. */
  ghost predicate Keeps(s: Server, r: Step) {
    && Valid(r.state)
    && Handles(r.state.clients) == Handles(s.clients)
    && s.issued <= r.state.issued
    && SentTo(r.sent, Handles(s.clients))
  }

  /** Every write goes to one of `hs`. */
  ghost predicate SentTo(sent: seq<Delivery>, hs: seq<ClientId>) {
    forall i :: 0 <= i < |sent| ==> sent[i].to in hs
  }

  lemma SentToAppend(a: seq<Delivery>, b: seq<Delivery>, hs: seq<ClientId>)
    requires SentTo(a, hs) && SentTo(b, hs)
    ensures SentTo(a + b, hs)
  {
    forall i | 0 <= i < |a + b| ensures (a + b)[i].to in hs {
      if i >= |a| {
        assert (a + b)[i] == b[i - |a|];
      }
    }
  }

  /** The messages written to client `h`, in order. */
  function Inbox(sent: seq<Delivery>, h: ClientId): (r: seq<Message>)
    ensures |r| <= |sent|
    ensures (forall i :: 0 <= i < |sent| ==> sent[i].to != h) ==> r == []
  {
    if |sent| == 0 then []
    else (if sent[0].to == h then [sent[0].msg] else []) + Inbox(sent[1..], h)
  }

  lemma {:induction false} InboxAppend(a: seq<Delivery>, b: seq<Delivery>, h: ClientId)
    ensures Inbox(a + b, h) == Inbox(a, h) + Inbox(b, h)
    decreases |a|
  {
    if |a| > 0 {
      InboxAppend(a[1..], b, h);
      assert (a + b)[1..] == a[1..] + b;
    } else {
      assert a + b == b;
    }
  }

  /** `client.WriteMessage(msg)`: appended to the writes, or a thrown
      exception when the client cannot be written to. */
  function Reply(st: Step, h: ClientId, msg: Message, unreachable: set<ClientId>): (r: Step)
    ensures r.state == st.state
    ensures h in unreachable ==> r.sent == st.sent && r.threw
    ensures h !in unreachable ==> r.sent == st.sent + [Delivery(h, msg)] && r.threw == st.threw
  {
    if h in unreachable then st.(threw := true) else st.(sent := st.sent + [Delivery(h, msg)])
  }

  /** `client.UserSession = …` for the client object `h`. */
  function SetSession(cs: seq<NetworkClient>, h: ClientId, cid: ConnId): (r: seq<NetworkClient>)
    ensures |r| == |cs|
    ensures forall i :: 0 <= i < |cs| ==> r[i].handle == cs[i].handle
    ensures forall i :: 0 <= i < |cs| ==> r[i].session == if cs[i].handle == h then Some(cid) else cs[i].session
  {
    if |cs| == 0 then []
    else [if cs[0].handle == h then cs[0].(session := Some(cid)) else cs[0]] + SetSession(cs[1..], h, cid)
  }

  /** After the assignment, the client object `h` reads the new session. */
  lemma {:induction false} ClientSessionAfterSet(cs: seq<NetworkClient>, h: ClientId, cid: ConnId)
    requires exists i :: 0 <= i < |cs| && cs[i].handle == h
    ensures ClientSession(SetSession(cs, h, cid), h) == Some(cid)
    decreases |cs|
  {
    if cs[0].handle != h {
      var i :| 0 <= i < |cs| && cs[i].handle == h;
      assert cs[1..][i - 1].handle == h;
      ClientSessionAfterSet(cs[1..], h, cid);
      assert SetSession(cs, h, cid)[1..] == SetSession(cs[1..], h, cid);
    }
  }

  /** Every other client object still reads its own session. */
  lemma {:induction false} ClientSessionElsewhere(cs: seq<NetworkClient>, h: ClientId, cid: ConnId, c: ClientId)
    requires c != h
    ensures ClientSession(SetSession(cs, h, cid), c) == ClientSession(cs, c)
    decreases |cs|
  {
    if |cs| > 0 && cs[0].handle != c {
      ClientSessionElsewhere(cs[1..], h, cid, c);
      assert SetSession(cs, h, cid)[1..] == SetSession(cs[1..], h, cid);
    }
  }

  /** Lines 171-172: a session with the next connection id, in no channel yet
      (`ChannelId` 0), becomes the client's. */
  function OpenSession(s: Server, h: ClientId, username: string): (r: Server)
    requires Valid(s) && h in Handles(s.clients)
    ensures Valid(r) && Handles(r.clients) == Handles(s.clients)
    ensures r.channels == s.channels && r.issued == s.issued + 1
    ensures s.issued !in s.sessions
    ensures r.sessions == s.sessions[s.issued := UserSession(s.issued, username, 0, 0)]
    ensures ClientSession(r.clients, h) == Some(s.issued)
    ensures r.clients == SetSession(s.clients, h, s.issued)
    ensures forall c :: c != h ==> ClientSession(r.clients, c) == ClientSession(s.clients, c)
  {
    var cid := s.issued;
    var cs := SetSession(s.clients, h, cid);
    forall c | c != h
      ensures ClientSession(cs, c) == ClientSession(s.clients, c)
    {
      ClientSessionElsewhere(s.clients, h, cid, c);
    }
    assert Handles(cs) == Handles(s.clients);
    assert exists i :: 0 <= i < |s.clients| && s.clients[i].handle == h by {
      var i :| 0 <= i < |s.clients| && Handles(s.clients)[i] == h;
    }
    ClientSessionAfterSet(s.clients, h, cid);
    OpenSessionKeepsValid(s, h, username);
    s.(clients := cs, sessions := s.sessions[cid := UserSession(cid, username, 0, 0)], issued := s.issued + 1)
  }

  /** The new session is live and carries a fresh id, so the object graph
      stays well formed. */
  lemma OpenSessionKeepsValid(s: Server, h: ClientId, username: string)
    requires Valid(s)
    ensures var cid := s.issued;
      Valid(s.(clients := SetSession(s.clients, h, cid), sessions := s.sessions[cid := UserSession(cid, username, 0, 0)], issued := s.issued + 1))
  {
    var cid := s.issued;
    var cs := SetSession(s.clients, h, cid);
    var r := s.(clients := cs, sessions := s.sessions[cid := UserSession(cid, username, 0, 0)], issued := s.issued + 1);
    assert ClientSessionsLive(cs, r.sessions) by {
      forall i | 0 <= i < |cs| && cs[i].session.Some? ensures cs[i].session.value in r.sessions {
        if s.clients[i].handle != h {
          assert s.clients[i].session.Some?;
        }
      }
    }
    assert DistinctHandles(cs) by {
      forall i, j | 0 <= i < j < |cs| ensures cs[i].handle != cs[j].handle {
        assert cs[i].handle == s.clients[i].handle;
      }
    }
    assert MembersLive(r.channels, r.sessions) by {
      forall i, k | 0 <= i < |r.channels| && 0 <= k < |r.channels[i].members|
        ensures r.channels[i].members[k] in r.sessions
      {
        assert s.channels[i].members[k] in s.sessions;
      }
    }
    assert SessionIdsIssued(r.sessions, r.issued) by {
      forall c | c in r.sessions ensures c < r.issued && r.sessions[c].connectionId == c {
        if c != cid {
          assert c in s.sessions;
        }
      }
    }
  }

  /** `CredentialRequestHandlerFail`'s response. */
  const FailureResponse := Message(CredentialResponse, CredentialResult(false, None, "Authentication failed. Either invalid username or password"))

  function SuccessResponse(u: UserSession): (m: Message) {
    Message(CredentialResponse, CredentialResult(true, Some(u), "Great success!"))
  }

  /** Lines 175-180: announce the new session to everyone else, then send it
      back to the client. */
  function Welcome(sent: seq<Delivery>, s: Server, h: ClientId, u: UserSession, unreachable: set<ClientId>): (r: Step)
    requires h in Handles(s.clients) && SentTo(sent, Handles(s.clients))
    ensures r.state == s && r.threw == (h in unreachable)
    ensures SentTo(r.sent, Handles(s.clients))
    ensures |sent| <= |r.sent| && r.sent[..|sent|] == sent
  {
    var notice := BroadcastAll(s, h, Message(UserConnected, SessionData(Some(u))), false, unreachable);
    SentToAppend(sent, notice, Handles(s.clients));
    SentToAppend(sent + notice, [Delivery(h, SuccessResponse(u))], Handles(s.clients));
    assert (sent + notice + [Delivery(h, SuccessResponse(u))])[..|sent|] == sent;
    assert (sent + notice)[..|sent|] == sent;
    Reply(Step(s, sent + notice, false), h, SuccessResponse(u), unreachable)
  }

  /** The client reads its own success response only: the `UserConnected`
      notice skips it. */
  lemma WelcomeInbox(sent: seq<Delivery>, s: Server, h: ClientId, u: UserSession, unreachable: set<ClientId>)
    requires h in Handles(s.clients) && SentTo(sent, Handles(s.clients))
    ensures Inbox(Welcome(sent, s, h, u, unreachable).sent, h)
      == Inbox(sent, h) + (if h in unreachable then [] else [SuccessResponse(u)])
  {
    var notice := BroadcastAll(s, h, Message(UserConnected, SessionData(Some(u))), false, unreachable);
    assert forall i :: 0 <= i < |notice| ==> notice[i].to != h by {
      forall i | 0 <= i < |notice| ensures notice[i].to != h {
        assert Receives(s, h, notice[i].to, false, unreachable);
      }
    }
    InboxAppend(sent, notice, h);
    assert Inbox(sent + notice, h) == Inbox(sent, h);
    var r := Welcome(sent, s, h, u, unreachable);
    if h !in unreachable {
      var last := [Delivery(h, SuccessResponse(u))];
      assert r.sent == sent + notice + last;
      InboxAppend(sent + notice, last, h);
      assert Inbox(last, h) == [SuccessResponse(u)];
      assert Inbox(r.sent, h) == Inbox(sent, h) + [SuccessResponse(u)];
    } else {
      assert r.sent == sent + notice;
      assert Inbox(r.sent, h) == Inbox(sent, h) + [];
    }
  }

  /** `CredentialRequestHandlerSuccess` (lines 168-181): a new session with the
      next connection id becomes the client's, joins the channel id 0 resolves
      to, is announced to everyone else, and is sent back to the client. */
  function LoginSuccess(st: Step, h: ClientId, username: string, unreachable: set<ClientId>): (r: Step)
    requires Valid(st.state) && h in Handles(st.state.clients)
    requires SentTo(st.sent, Handles(st.state.clients))
    ensures Keeps(st.state, r)
    ensures r.state.issued == st.state.issued + 1
    ensures st.state.issued !in st.state.sessions && st.state.issued in r.state.sessions
    ensures r.state.sessions[st.state.issued].username == username
    ensures ClientSession(r.state.clients, h) == Some(st.state.issued)
    ensures |st.state.channels| > 0 ==>
      && r.threw == (h in unreachable)
      && r.state.sessions[st.state.issued].channelId == st.state.channels[ResolveTarget(st.state.channels, DefaultTargetId).value].id
    ensures |st.state.channels| == 0 ==> r.threw && r.sent == st.sent
  {
    var s := st.state;
    var cid := s.issued;
    var s1 := OpenSession(s, h, username);
    AddUserKeepsValid(s1, cid, DefaultTargetId);
    match AddUserToChannel(s1, cid, DefaultTargetId)
    case None => Step(s1, st.sent, true)
    case Some(s2) => Welcome(st.sent, s2, h, s2.sessions[cid], unreachable)
  }

  /** What the client itself reads from a successful login: its own success
      response, since the `UserConnected` notice skips it. */
  lemma LoginSuccessInbox(st: Step, h: ClientId, username: string, unreachable: set<ClientId>)
    requires Valid(st.state) && h in Handles(st.state.clients) && |st.state.channels| > 0
    requires SentTo(st.sent, Handles(st.state.clients))
    ensures var r := LoginSuccess(st, h, username, unreachable);
      Inbox(r.sent, h) == Inbox(st.sent, h) + (if h in unreachable then [] else [SuccessResponse(r.state.sessions[st.state.issued])])
  {
    var cid := st.state.issued;
    var s2 := AddUserToChannel(OpenSession(st.state, h, username), cid, DefaultTargetId).value;
    WelcomeInbox(st.sent, s2, h, s2.sessions[cid], unreachable);
  }

  /** Besides the new session, a login changes nothing another session or
      client could see: the channel list keeps its length and gains exactly
      the one membership, earlier sessions are untouched, and only client
      `h` gets a new `UserSession`. */
  lemma LoginSuccessFrame(st: Step, h: ClientId, username: string, unreachable: set<ClientId>)
    requires Valid(st.state) && h in Handles(st.state.clients) && |st.state.channels| > 0
    requires SentTo(st.sent, Handles(st.state.clients))
    ensures var s := st.state;
      var r := LoginSuccess(st, h, username, unreachable).state;
      && |r.channels| == |s.channels|
      && AllMembers(r.channels) == AllMembers(s.channels) + multiset{s.issued}
      && (forall c :: c in s.sessions ==> c in r.sessions && r.sessions[c] == s.sessions[c])
      && |r.clients| == |s.clients|
      && (forall i :: 0 <= i < |s.clients| ==>
            r.clients[i].session == if s.clients[i].handle == h then Some(s.issued) else s.clients[i].session)
      && s.issued in r.channels[ResolveTarget(s.channels, DefaultTargetId).value].members
      && Placed(r, s.issued)
  {
    var s := st.state;
    var s1 := OpenSession(s, h, username);
    DeadNotMember(s.channels, s.sessions, s.issued);
    AddPlaces(s1, s.issued, DefaultTargetId);
    var j := ResolveTarget(s.channels, DefaultTargetId).value;
    var r := AddUserToChannel(s1, s.issued, DefaultTargetId).value;
    assert r.channels[j].members[|s.channels[j].members|] == s.issued;
  }

  /** The failure write of line 159, or of line 164 in the catch block; either
      way the same response, and an exception escapes if it cannot be written. */
  function FailReply(st: Step, h: ClientId, unreachable: set<ClientId>): (r: Step)
    ensures r.state == st.state
    ensures h in unreachable ==> r.sent == st.sent && r.threw
    ensures h !in unreachable ==> r.sent == st.sent + [Delivery(h, FailureResponse)] && !r.threw
  {
    Reply(st.(threw := false), h, FailureResponse, unreachable)
  }

  /** Lines 144-149: a blank username logs in anonymously. */
  function AnonymousStep(s: Server, h: ClientId, username: string, env: Oracle, unreachable: set<ClientId>): (r: Step)
    requires Valid(s) && h in Handles(s.clients)
    ensures Keeps(s, r)
  {
    if IsNullOrWhiteSpace(username) then LoginSuccess(Step(s, [], false), h, AnonName(env.anonSuffix), unreachable)
    else Step(s, [], false)
  }

  /** Lines 151-156: credentials the user service accepts log in under the
      stored username. Reached after the anonymous login as well. */
  function AuthenticatedStep(st: Step, h: ClientId, env: Oracle, unreachable: set<ClientId>): (r: Step)
    requires Valid(st.state) && h in Handles(st.state.clients) && SentTo(st.sent, Handles(st.state.clients))
    ensures Keeps(st.state, r)
  {
    match env.auth
    case Accepted(name) => LoginSuccess(st, h, name, unreachable)
    case _ => st
  }

  /** `CredentialRequestHandler` (lines 138-166), as written: the blank-username
      branch and the authenticated branch are independent `if`s, and the
      failure write after them is unconditional. An exception in either
      branch, including a failed `AuthFailed` lookup, lands in the catch block,
      which writes the same failure response. */
  function HandleCredentialRequest(s: Server, h: ClientId, msg: Message, env: Oracle, unreachable: set<ClientId>): (r: Step)
    requires Valid(s) && h in Handles(s.clients)
    ensures Keeps(s, r)
    ensures r.threw <==> h in unreachable
    ensures h !in unreachable ==> |r.sent| > 0 && r.sent[|r.sent| - 1] == Delivery(h, FailureResponse)
  {
    var st := match msg.data
      case Credentials(username, _) =>
        var st1 := AnonymousStep(s, h, username, env, unreachable);
        if st1.threw then st1 else AuthenticatedStep(st1, h, env, unreachable)
      case _ => Step(s, [], true);
    SentToAppend(st.sent, [Delivery(h, FailureResponse)], Handles(s.clients));
    FailReply(st, h, unreachable)
  }

  /** The handler is the two login steps followed by the failure write. */
  lemma CredentialFlow(s: Server, h: ClientId, username: string, password: string, env: Oracle, unreachable: set<ClientId>)
    requires Valid(s) && h in Handles(s.clients)
    ensures var st1 := AnonymousStep(s, h, username, env, unreachable);
      HandleCredentialRequest(s, h, Message(CredentialRequest, Credentials(username, password)), env, unreachable)
        == FailReply(if st1.threw then st1 else AuthenticatedStep(st1, h, env, unreachable), h, unreachable)
  {
  }

  /** The failure write comes last in the client's own inbox. */
  lemma FailReplyInbox(st: Step, h: ClientId, unreachable: set<ClientId>)
    requires h !in unreachable
    ensures Inbox(FailReply(st, h, unreachable).sent, h) == Inbox(st.sent, h) + [FailureResponse]
  {
    InboxAppend(st.sent, [Delivery(h, FailureResponse)], h);
    assert Inbox([Delivery(h, FailureResponse)], h) == [FailureResponse];
  }

  /** A blank username the user service rejects gives an "Anon#n" session in
      the channel id 0 resolves to and a success response, and then, because
      the write at line 159 is unconditional, the failure response as well.
      When the service accepts the blank name, see
      `BlankAndAcceptedLogsInTwice`. */
  lemma AnonymousLogin(s: Server, h: ClientId, username: string, password: string, env: Oracle, unreachable: set<ClientId>)
    requires Valid(s) && h in Handles(s.clients) && h !in unreachable
    requires |s.channels| > 0
    requires IsNullOrWhiteSpace(username) && !env.auth.Accepted?
    ensures var r := HandleCredentialRequest(s, h, Message(CredentialRequest, Credentials(username, password)), env, unreachable);
      && ClientSession(r.state.clients, h) == Some(s.issued)
      && r.state.sessions[s.issued].username == AnonName(env.anonSuffix)
      && r.state.sessions[s.issued].channelId == s.channels[ResolveTarget(s.channels, DefaultTargetId).value].id
      && |r.state.channels| == |s.channels|
      && s.issued in r.state.channels[ResolveTarget(s.channels, DefaultTargetId).value].members
      && Placed(r.state, s.issued)
      && Inbox(r.sent, h) == [SuccessResponse(r.state.sessions[s.issued]), FailureResponse]
  {
    var st0 := Step(s, [], false);
    var st1 := LoginSuccess(st0, h, AnonName(env.anonSuffix), unreachable);
    CredentialFlow(s, h, username, password, env, unreachable);
    LoginSuccessInbox(st0, h, AnonName(env.anonSuffix), unreachable);
    LoginSuccessFrame(st0, h, AnonName(env.anonSuffix), unreachable);
    FailReplyInbox(st1, h, unreachable);
  }

  /** A blank username the user service also accepts runs both branches of
      lines 144-156: the `Anon#n` session is opened, joins the resolved
      channel and is announced, then a second session with the stored
      username replaces it on the client. The anonymous session stays a
      channel member that no client holds. */
  lemma BlankAndAcceptedLogsInTwice(s: Server, h: ClientId, username: string, password: string, env: Oracle, unreachable: set<ClientId>)
    requires Valid(s) && h in Handles(s.clients) && h !in unreachable
    requires |s.channels| > 0
    requires IsNullOrWhiteSpace(username) && env.auth.Accepted?
    ensures var r := HandleCredentialRequest(s, h, Message(CredentialRequest, Credentials(username, password)), env, unreachable);
      && !r.threw
      && r.state.issued == s.issued + 2
      && ClientSession(r.state.clients, h) == Some(s.issued + 1)
      && r.state.sessions[s.issued].username == AnonName(env.anonSuffix)
      && r.state.sessions[s.issued + 1].username == env.auth.profileName
      && AllMembers(r.state.channels)[s.issued] == 1
      && (forall i :: 0 <= i < |r.state.clients| ==> r.state.clients[i].session != Some(s.issued))
  {
    BothBranchesRun(s, h, username, password, env, unreachable);
    TwoLoginsState(s, h, AnonName(env.anonSuffix), env.auth.profileName, unreachable);
  }

  /** In that case the client reads the success response for the anonymous
      session, the one for the stored username, and the failure response. */
  lemma BlankAndAcceptedInbox(s: Server, h: ClientId, username: string, password: string, env: Oracle, unreachable: set<ClientId>)
    requires Valid(s) && h in Handles(s.clients) && h !in unreachable
    requires |s.channels| > 0
    requires IsNullOrWhiteSpace(username) && env.auth.Accepted?
    ensures var r := HandleCredentialRequest(s, h, Message(CredentialRequest, Credentials(username, password)), env, unreachable);
      && s.issued in r.state.sessions && s.issued + 1 in r.state.sessions
      && Inbox(r.sent, h) == [SuccessResponse(r.state.sessions[s.issued]), SuccessResponse(r.state.sessions[s.issued + 1]), FailureResponse]
  {
    BothBranchesRun(s, h, username, password, env, unreachable);
    TwoLoginsThenFailInbox(s, h, AnonName(env.anonSuffix), env.auth.profileName, unreachable);
  }

  /** Two logins and the failure write: the client reads both success
      responses and then the failure response. */
  lemma TwoLoginsThenFailInbox(s: Server, h: ClientId, name1: string, name2: string, unreachable: set<ClientId>)
    requires Valid(s) && h in Handles(s.clients) && h !in unreachable && |s.channels| > 0
    ensures var r := FailReply(LoginSuccess(LoginSuccess(Step(s, [], false), h, name1, unreachable), h, name2, unreachable), h, unreachable);
      && s.issued in r.state.sessions && s.issued + 1 in r.state.sessions
      && Inbox(r.sent, h) == [SuccessResponse(r.state.sessions[s.issued]), SuccessResponse(r.state.sessions[s.issued + 1]), FailureResponse]
  {
    FirstLogin(s, h, name1, unreachable);
    var st1 := LoginSuccess(Step(s, [], false), h, name1, unreachable);
    LoginAgainThenFail(st1, h, name2, unreachable, s.issued, st1.state.sessions[s.issued]);
  }

  /** With a blank username the service accepts, neither login throws, so the
      handler is both logins followed by the failure write. */
  lemma BothBranchesRun(s: Server, h: ClientId, username: string, password: string, env: Oracle, unreachable: set<ClientId>)
    requires Valid(s) && h in Handles(s.clients) && h !in unreachable
    requires |s.channels| > 0
    requires IsNullOrWhiteSpace(username) && env.auth.Accepted?
    ensures !LoginSuccess(Step(s, [], false), h, AnonName(env.anonSuffix), unreachable).threw
    ensures HandleCredentialRequest(s, h, Message(CredentialRequest, Credentials(username, password)), env, unreachable)
      == FailReply(LoginSuccess(LoginSuccess(Step(s, [], false), h, AnonName(env.anonSuffix), unreachable), h, env.auth.profileName, unreachable), h, unreachable)
  {
    FirstLogin(s, h, AnonName(env.anonSuffix), unreachable);
    CredentialFlow(s, h, username, password, env, unreachable);
  }

  /** After two logins the client holds the second session; the first one
      keeps its name and its channel membership, but no client holds it. */
  lemma TwoLoginsState(s: Server, h: ClientId, name1: string, name2: string, unreachable: set<ClientId>)
    requires Valid(s) && h in Handles(s.clients) && h !in unreachable && |s.channels| > 0
    ensures var st2 := LoginSuccess(LoginSuccess(Step(s, [], false), h, name1, unreachable), h, name2, unreachable);
      && !st2.threw && st2.state.issued == s.issued + 2
      && ClientSession(st2.state.clients, h) == Some(s.issued + 1)
      && s.issued in st2.state.sessions && st2.state.sessions[s.issued].username == name1
      && s.issued + 1 in st2.state.sessions && st2.state.sessions[s.issued + 1].username == name2
      && AllMembers(st2.state.channels)[s.issued] == 1
      && (forall i :: 0 <= i < |st2.state.clients| ==> st2.state.clients[i].session != Some(s.issued))
  {
    var st0 := Step(s, [], false);
    var st1 := LoginSuccess(st0, h, name1, unreachable);
    FirstLogin(s, h, name1, unreachable);
    LoginSuccessFrame(st0, h, name1, unreachable);
    LoginSuccessFrame(st1, h, name2, unreachable);
    DeadNotMember(s.channels, s.sessions, s.issued);
    var st2 := LoginSuccess(st1, h, name2, unreachable);
    forall i | 0 <= i < |st2.state.clients| ensures st2.state.clients[i].session != Some(s.issued) {
      if s.clients[i].handle != h && s.clients[i].session.Some? {
        assert s.clients[i].session.value in s.sessions;
      }
    }
  }

  /** A second login and the failure write after one that left `u1` as the
      client's only read: `u1` is kept, and the new session's success
      response and the failure response follow it. */
  lemma LoginAgainThenFail(st: Step, h: ClientId, name: string, unreachable: set<ClientId>, k: ConnId, u1: UserSession)
    requires Valid(st.state) && h in Handles(st.state.clients) && h !in unreachable && |st.state.channels| > 0
    requires SentTo(st.sent, Handles(st.state.clients))
    requires k in st.state.sessions && st.state.sessions[k] == u1 && Inbox(st.sent, h) == [SuccessResponse(u1)]
    ensures var r := FailReply(LoginSuccess(st, h, name, unreachable), h, unreachable);
      && k in r.state.sessions && r.state.sessions[k] == u1 && st.state.issued in r.state.sessions
      && Inbox(r.sent, h) == [SuccessResponse(u1), SuccessResponse(r.state.sessions[st.state.issued]), FailureResponse]
  {
    LoginAgainInbox(st, h, name, unreachable, k, u1);
    var st2 := LoginSuccess(st, h, name, unreachable);
    FailReplyInbox(st2, h, unreachable);
    assert [SuccessResponse(u1), SuccessResponse(st2.state.sessions[st.state.issued])] + [FailureResponse]
      == [SuccessResponse(u1), SuccessResponse(st2.state.sessions[st.state.issued]), FailureResponse];
  }

  /** A second login after one that left `u1` as the client's only read:
      `u1` is kept, and the new session's success response follows it. */
  lemma LoginAgainInbox(st: Step, h: ClientId, name: string, unreachable: set<ClientId>, k: ConnId, u1: UserSession)
    requires Valid(st.state) && h in Handles(st.state.clients) && h !in unreachable && |st.state.channels| > 0
    requires SentTo(st.sent, Handles(st.state.clients))
    requires k in st.state.sessions && st.state.sessions[k] == u1 && Inbox(st.sent, h) == [SuccessResponse(u1)]
    ensures var r := LoginSuccess(st, h, name, unreachable);
      && k in r.state.sessions && r.state.sessions[k] == u1 && st.state.issued in r.state.sessions
      && Inbox(r.sent, h) == [SuccessResponse(u1), SuccessResponse(r.state.sessions[st.state.issued])]
  {
    LoginSuccessFrame(st, h, name, unreachable);
    LoginSuccessInbox(st, h, name, unreachable);
  }

  /** A first login leaves a state another login can run on, with the
      client's success response as its only read. */
  lemma FirstLogin(s: Server, h: ClientId, name: string, unreachable: set<ClientId>)
    requires Valid(s) && h in Handles(s.clients) && h !in unreachable && |s.channels| > 0
    ensures var st1 := LoginSuccess(Step(s, [], false), h, name, unreachable);
      && Valid(st1.state) && h in Handles(st1.state.clients) && |st1.state.channels| > 0
      && SentTo(st1.sent, Handles(st1.state.clients)) && !st1.threw
      && st1.state.issued == s.issued + 1 && s.issued in st1.state.sessions
      && Inbox(st1.sent, h) == [SuccessResponse(st1.state.sessions[s.issued])]
  {
    LoginSuccessFrame(Step(s, [], false), h, name, unreachable);
    LoginSuccessInbox(Step(s, [], false), h, name, unreachable);
  }

  /** An accepted non-blank username gives a session with the stored username,
      a success response, and then the failure response. */
  lemma AuthenticatedLogin(s: Server, h: ClientId, username: string, password: string, env: Oracle, unreachable: set<ClientId>)
    requires Valid(s) && h in Handles(s.clients) && h !in unreachable
    requires |s.channels| > 0
    requires !IsNullOrWhiteSpace(username) && env.auth.Accepted?
    ensures var r := HandleCredentialRequest(s, h, Message(CredentialRequest, Credentials(username, password)), env, unreachable);
      && ClientSession(r.state.clients, h) == Some(s.issued)
      && r.state.sessions[s.issued].username == env.auth.profileName
      && |r.state.channels| == |s.channels|
      && s.issued in r.state.channels[ResolveTarget(s.channels, DefaultTargetId).value].members
      && Placed(r.state, s.issued)
      && Inbox(r.sent, h) == [SuccessResponse(r.state.sessions[s.issued]), FailureResponse]
  {
    var st0 := Step(s, [], false);
    var st2 := LoginSuccess(st0, h, env.auth.profileName, unreachable);
    CredentialFlow(s, h, username, password, env, unreachable);
    LoginSuccessInbox(st0, h, env.auth.profileName, unreachable);
    LoginSuccessFrame(st0, h, env.auth.profileName, unreachable);
    FailReplyInbox(st2, h, unreachable);
  }

  /** A rejected non-blank username changes nothing and gets the failure
      response only. */
  lemma RejectedLogin(s: Server, h: ClientId, username: string, password: string, env: Oracle, unreachable: set<ClientId>)
    requires Valid(s) && h in Handles(s.clients) && h !in unreachable
    requires !IsNullOrWhiteSpace(username) && !env.auth.Accepted?
    ensures var r := HandleCredentialRequest(s, h, Message(CredentialRequest, Credentials(username, password)), env, unreachable);
      r == Step(s, [Delivery(h, FailureResponse)], false)
  {
  }

  /** `ChatHandler` and `VoiceHandler`: relay to the sender's channel,
      sender included. */
  function HandleChannelMessage(s: Server, h: ClientId, msg: Message, unreachable: set<ClientId>): (r: Step)
    requires Valid(s)
    ensures r.state == s && Keeps(s, r)
    ensures r.threw <==> BroadcastChannel(s, h, msg, true, unreachable).None?
    ensures forall i :: 0 <= i < |r.sent| ==> r.sent[i].msg == msg
  {
    match BroadcastChannel(s, h, msg, true, unreachable)
    case None => Step(s, [], true)
    case Some(d) => Step(s, d, false)
  }

  /** `GetAllChannelsRequestHandler`: the channel list, to the requester only. */
  function HandleGetAllChannels(s: Server, h: ClientId, unreachable: set<ClientId>): (r: Step)
    requires Valid(s) && h in Handles(s.clients)
    ensures r.state == s && Keeps(s, r)
    ensures h !in unreachable ==> r.sent == [Delivery(h, Message(GetAllChannelsResponse, ChannelList(s.channels)))]
  {
    Reply(Step(s, [], false), h, Message(GetAllChannelsResponse, ChannelList(s.channels)), unreachable)
  }

  /** `UserChangeChannelRequestHandler`: remove the session from its channel,
      add it to the requested one, announce to everyone. */
  function HandleUserChangeChannel(s: Server, h: ClientId, msg: Message, unreachable: set<ClientId>): (r: Step)
    requires Valid(s) && h in Handles(s.clients)
    ensures Keeps(s, r)
    ensures ClientSession(s.clients, h).None? ==> r == Step(s, [], true)
    ensures !msg.data.TargetChannel? ==> r.threw && r.sent == [] && r.state.sessions == s.sessions
  {
    var session := ClientSession(s.clients, h);
    var s1 := RemoveUserFromChannel(s, session);
    RemoveUserKeepsValid(s, session);
    match msg.data
    case TargetChannel(target) =>
      (match session
       case None => Step(s1, [], true)
       case Some(cid) =>
         AddUserKeepsValid(s1, cid, target);
         match AddUserToChannel(s1, cid, target)
         case None => Step(s1, [], true)
         case Some(s2) =>
           var notice := Message(UserChangeChannelResponse, SessionData(Some(s2.sessions[cid])));
           Step(s2, BroadcastAll(s2, h, notice, true, unreachable), false))
    case _ => Step(s1, [], true)   // the `(int)` cast throws after the removal
  }

  /** A malformed target still costs the session its channel: the removal
      runs before the cast throws. */
  lemma ChangeChannelMalformedTarget(s: Server, h: ClientId, data: Payload, unreachable: set<ClientId>)
    requires Valid(s) && h in Handles(s.clients) && !data.TargetChannel?
    requires ClientSession(s.clients, h).Some? && Placed(s, ClientSession(s.clients, h).value)
    ensures var r := HandleUserChangeChannel(s, h, Message(UserChangeChannelRequest, data), unreachable);
      && r.threw
      && AllMembers(r.state.channels) == AllMembers(s.channels) - multiset{ClientSession(s.clients, h).value}
      && AllMembers(r.state.channels)[ClientSession(s.clients, h).value] == 0
  {
    RemoveUnplaces(s, ClientSession(s.clients, h).value);
  }

  /** A channel change moves a placed session: afterwards it is a member of
      exactly the channel the target resolves to, and no membership is lost
      or duplicated. */
  lemma ChangeChannelMovesSession(s: Server, h: ClientId, target: int, unreachable: set<ClientId>)
    requires Valid(s) && h in Handles(s.clients) && |s.channels| > 0
    requires ClientSession(s.clients, h).Some? && Placed(s, ClientSession(s.clients, h).value)
    ensures var r := HandleUserChangeChannel(s, h, Message(UserChangeChannelRequest, TargetChannel(target)), unreachable);
      var cid := ClientSession(s.clients, h).value;
      && !r.threw
      && Placed(r.state, cid)
      && |r.state.channels| == |s.channels|
      && cid in r.state.channels[ResolveTarget(s.channels, target).value].members
      && AllMembers(r.state.channels) == AllMembers(s.channels)
  {
    MoveKeepsPlacement(s, ClientSession(s.clients, h).value, target);
  }

  /** `CreateChannelRequestHandler`: persist, append the new empty channel,
      announce it to everyone, requester included. */
  function HandleCreateChannel(s: Server, h: ClientId, msg: Message, env: Oracle, unreachable: set<ClientId>): (r: Step)
    requires Valid(s) && h in Handles(s.clients)
    ensures Keeps(s, r)
    ensures r.threw <==> !msg.data.ChannelData? || env.createdId.None?
    ensures r.threw ==> r == Step(s, [], true)
    ensures !r.threw ==>
      && |r.state.channels| == |s.channels| + 1
      && r.state.channels[..|s.channels|] == s.channels
      && r.state.channels[|s.channels|] == ChannelSession(env.createdId.value, msg.data.channelName, [])
      && r.state.sessions == s.sessions && r.state.clients == s.clients
  {
    match msg.data
    case ChannelData(_, name) =>
      (match env.createdId
       case None => Step(s, [], true)
       case Some(id) =>
         var c := ChannelSession(id, name, []);
         var s1 := AddChannel(s, c);
         assert s1.channels[..|s.channels|] == s.channels;
         assert Valid(s1) by {
           forall j, k | 0 <= j < |s1.channels| && 0 <= k < |s1.channels[j].members|
             ensures s1.channels[j].members[k] in s1.sessions
           {
             assert j < |s.channels|;
             assert s1.channels[j] == s.channels[j];
           }
         }
         Step(s1, BroadcastAll(s1, h, Message(CreateChannelResponse, ChannelSnapshot(c)), true, unreachable), false))
    case _ => Step(s, [], true)
  }

  /** The created channel is announced to every reachable client, the
      requester included, when the requester is authenticated; and to nobody
      otherwise, since line 364 reads the requester's session. */
  lemma CreateChannelAnnounced(s: Server, h: ClientId, id: ChannelId, name: string, env: Oracle, unreachable: set<ClientId>)
    requires Valid(s) && h in Handles(s.clients) && env.createdId.Some?
    ensures var r := HandleCreateChannel(s, h, Message(CreateChannelRequest, ChannelData(id, name)), env, unreachable);
      var announce := Message(CreateChannelResponse, ChannelSnapshot(ChannelSession(env.createdId.value, name, [])));
      && (ClientSession(s.clients, h).Some? ==>
            forall c :: c in Handles(s.clients) && c !in unreachable ==> Delivery(c, announce) in r.sent)
      && (ClientSession(s.clients, h).None? ==> r.sent == [])
  {
    var r := HandleCreateChannel(s, h, Message(CreateChannelRequest, ChannelData(id, name)), env, unreachable);
    assert r.state.clients == s.clients;
  }

  /** `RenameChannelRequestHandler`: look the channel up, persist, rename it
      in place, announce to everyone. */
  function HandleRenameChannel(s: Server, h: ClientId, msg: Message, env: Oracle, unreachable: set<ClientId>): (r: Step)
    requires Valid(s) && h in Handles(s.clients)
    ensures Keeps(s, r)
    ensures r.state.sessions == s.sessions && r.state.clients == s.clients
  {
    match msg.data
    case ChannelData(id, name) =>
      (match FindChannel(s.channels, id)
       case None => Step(s, [], false)
       case Some(i) =>
         if !env.persisted then Step(s, [], true)
         else
           var s1 := s.(channels := s.channels[i := s.channels[i].(name := name)]);
           assert Valid(s1) by {
             ValidUpdateChannel(s, i, s.channels[i].(name := name));
           }
           Step(s1, BroadcastAll(s1, h, Message(RenameChannelResponse, msg.data), true, unreachable), false))
    case _ => Step(s, [], true)
  }

  /** Renaming an unknown id changes nothing and sends nothing. */
  lemma RenameUnknownChannel(s: Server, h: ClientId, id: ChannelId, name: string, env: Oracle, unreachable: set<ClientId>)
    requires Valid(s) && h in Handles(s.clients)
    requires forall k :: 0 <= k < |s.channels| ==> s.channels[k].id != id
    ensures HandleRenameChannel(s, h, Message(RenameChannelRequest, ChannelData(id, name)), env, unreachable) == Step(s, [], false)
  {
  }

  /** Renaming a known id changes that channel's name and nothing else, and
      only once the persistence call has returned; when it throws, nothing
      changes. */
  lemma RenameKnownChannel(s: Server, h: ClientId, id: ChannelId, name: string, env: Oracle, unreachable: set<ClientId>)
    requires Valid(s) && h in Handles(s.clients)
    requires exists k :: 0 <= k < |s.channels| && s.channels[k].id == id
    ensures var r := HandleRenameChannel(s, h, Message(RenameChannelRequest, ChannelData(id, name)), env, unreachable);
      var i := FindChannel(s.channels, id).value;
      && (!env.persisted ==> r == Step(s, [], true))
      && (env.persisted ==>
            && !r.threw
            && |r.state.channels| == |s.channels|
            && r.state.channels[i] == ChannelSession(id, name, s.channels[i].members)
            && (forall k :: 0 <= k < |s.channels| && k != i ==> r.state.channels[k] == s.channels[k]))
  {
  }

  /** Channel ids are pairwise distinct. */
  ghost predicate UniqueChannelIds(cs: seq<ChannelSession>) {
    forall i, j :: 0 <= i < j < |cs| ==> cs[i].id != cs[j].id
  }

  /** `channelSessions.Remove(channelFromServer)`. */
  function RemoveChannelAt(cs: seq<ChannelSession>, i: nat): (r: seq<ChannelSession>)
    requires i < |cs|
    ensures |r| == |cs| - 1
    ensures forall k :: 0 <= k < i ==> r[k] == cs[k]
    ensures forall k :: i < k < |cs| ==> r[k - 1] == cs[k]
  {
    cs[..i] + cs[i + 1..]
  }

  /** `DeleteChannelRequestHandler`: refuse the lobby id and unknown ids;
      otherwise persist, evacuate the members to the channel id 0 resolves
      to, remove the channel, and send everyone the new channel list. When
      that target is the channel being deleted and it has members, the first
      `AddUser` modifies the member list being enumerated and the enumerator
      throws (`ChannelSession.UserSessions` is taken to be a `List`). */
  function HandleDeleteChannel(s: Server, h: ClientId, msg: Message, env: Oracle, unreachable: set<ClientId>): (r: Step)
    requires Valid(s) && h in Handles(s.clients)
    ensures Keeps(s, r)
    ensures r.state.clients == s.clients
  {
    match msg.data
    case ChannelData(id, _) =>
      if id == LobbyChannelId then Step(s, [], false)
      else
        (match FindChannel(s.channels, id)
         case None => Step(s, [], false)
         case Some(i) =>
           if !env.persisted then Step(s, [], true)
           else
             var j := ResolveTarget(s.channels, DefaultTargetId).value;
             var ms := s.channels[i].members;
             assert forall m :: m in ms ==> m in s.sessions;
             if j == i && |ms| > 0 then
               AddUserKeepsValid(s, ms[0], DefaultTargetId);
               Step(AddUserToChannel(s, ms[0], DefaultTargetId).value, [], true)
             else
               EvacuationKeepsValid(s, ms);
               var s1 := EvacuateMembers(s, ms);
               var s2 := s1.(channels := RemoveChannelAt(s1.channels, i));
               assert Valid(s2) by {
                 forall a, k | 0 <= a < |s2.channels| && 0 <= k < |s2.channels[a].members|
                   ensures s2.channels[a].members[k] in s2.sessions
                 {
                   if a < i {
                     assert s2.channels[a] == s1.channels[a];
                   } else {
                     assert s2.channels[a] == s1.channels[a + 1];
                   }
                 }
               }
               Step(s2, BroadcastAll(s2, h, Message(GetAllChannelsResponse, ChannelList(s2.channels)), true, unreachable), false))
    case _ => Step(s, [], true)
  }

  /** Deleting the lobby id, or an id no channel has, changes nothing and
      sends nothing. */
  lemma DeleteRefused(s: Server, h: ClientId, id: ChannelId, name: string, env: Oracle, unreachable: set<ClientId>)
    requires Valid(s) && h in Handles(s.clients)
    requires id == LobbyChannelId || forall k :: 0 <= k < |s.channels| ==> s.channels[k].id != id
    ensures HandleDeleteChannel(s, h, Message(DeleteChannelRequest, ChannelData(id, name)), env, unreachable) == Step(s, [], false)
  {
  }

  /** Deleting an existing non-lobby channel whose evacuation target is another
      channel: the channel is gone, its members are appended to the target,
      they record the target's id, and every other channel keeps its
      contents and order. */
  lemma DeleteEvacuates(s: Server, h: ClientId, id: ChannelId, name: string, env: Oracle, unreachable: set<ClientId>)
    requires Valid(s) && h in Handles(s.clients) && env.persisted
    requires id != LobbyChannelId && exists k :: 0 <= k < |s.channels| && s.channels[k].id == id
    requires ResolveTarget(s.channels, DefaultTargetId).value != FindChannel(s.channels, id).value
    ensures var r := HandleDeleteChannel(s, h, Message(DeleteChannelRequest, ChannelData(id, name)), env, unreachable);
      var i := FindChannel(s.channels, id).value;
      var j := ResolveTarget(s.channels, DefaultTargetId).value;
      var j' := if j < i then j else j - 1;
      && !r.threw
      && |r.state.channels| == |s.channels| - 1
      && r.state.channels[j'] == s.channels[j].(members := s.channels[j].members + s.channels[i].members)
      && (forall k :: 0 <= k < i && k != j ==> r.state.channels[k] == s.channels[k])
      && (forall k :: i < k < |s.channels| && k != j ==> r.state.channels[k - 1] == s.channels[k])
      && (forall m :: m in s.channels[i].members ==> r.state.sessions[m].channelId == s.channels[j].id)
  {
    var i := FindChannel(s.channels, id).value;
    var j := ResolveTarget(s.channels, DefaultTargetId).value;
    var ms := s.channels[i].members;
    var s1 := EvacuateMembers(s, ms);
    var r := HandleDeleteChannel(s, h, Message(DeleteChannelRequest, ChannelData(id, name)), env, unreachable);
    assert r.state == s1.(channels := RemoveChannelAt(s1.channels, i)) && !r.threw;
    MoveThenRemoveShape(s.channels, i, j, s.channels[j].(members := s.channels[j].members + ms));
    EvacuationRelabelsMembers(s, ms, j);
  }

  /** Replacing channel `j` and then removing channel `i` shifts the channels
      after `i` down by one and leaves the rest in place. */
  lemma MoveThenRemoveShape(cs: seq<ChannelSession>, i: nat, j: nat, c: ChannelSession)
    requires i < |cs| && j < |cs| && i != j
    ensures var t := RemoveChannelAt(cs[j := c], i);
      && |t| == |cs| - 1
      && t[if j < i then j else j - 1] == c
      && (forall k :: 0 <= k < i && k != j ==> t[k] == cs[k])
      && (forall k :: i < k < |cs| && k != j ==> t[k - 1] == cs[k])
  {
  }

  /** Appending channel `i`'s members to channel `j` adds them once more. */
  lemma MoveAddsMembers(cs: seq<ChannelSession>, i: nat, j: nat)
    requires i < |cs| && j < |cs|
    ensures AllMembers(cs[j := cs[j].(members := cs[j].members + cs[i].members)]) == AllMembers(cs) + multiset(cs[i].members)
  {
    var t := cs[j := cs[j].(members := cs[j].members + cs[i].members)];
    AllMembersUpdate(cs, j, t[j]);
    assert multiset(t[j].members) == multiset(cs[j].members) + multiset(cs[i].members);
  }

  lemma MultisetCancel(a: multiset<ConnId>, b: multiset<ConnId>, m: multiset<ConnId>)
    requires a + m == b + m
    ensures a == b
  {
    assert a == a + m - m;
    assert b == b + m - m;
  }

  /** Moving channel `i`'s members onto channel `j` and then removing channel
      `i` keeps the overall membership. */
  lemma MoveThenRemove(cs: seq<ChannelSession>, i: nat, j: nat)
    requires i < |cs| && j < |cs| && i != j
    ensures AllMembers(RemoveChannelAt(cs[j := cs[j].(members := cs[j].members + cs[i].members)], i)) == AllMembers(cs)
  {
    var t := cs[j := cs[j].(members := cs[j].members + cs[i].members)];
    MoveAddsMembers(cs, i, j);
    AllMembersRemoveAt(t, i);
    assert t[i] == cs[i];
    var rest := RemoveChannelAt(t, i);
    assert rest == t[..i] + t[i + 1..];
    MultisetCancel(AllMembers(rest), AllMembers(cs), multiset(cs[i].members));
  }

  /** Deleting a channel loses no membership: the evacuees are counted in
      their new channel. This holds whenever the deletion goes through: the
      evacuation target is another channel, or it is the deleted channel
      itself and that channel is empty. */
  lemma DeleteConservesMembers(s: Server, h: ClientId, id: ChannelId, name: string, env: Oracle, unreachable: set<ClientId>)
    requires Valid(s) && h in Handles(s.clients) && env.persisted
    requires id != LobbyChannelId && exists k :: 0 <= k < |s.channels| && s.channels[k].id == id
    requires var i := FindChannel(s.channels, id).value;
      ResolveTarget(s.channels, DefaultTargetId).value != i || |s.channels[i].members| == 0
    ensures AllMembers(HandleDeleteChannel(s, h, Message(DeleteChannelRequest, ChannelData(id, name)), env, unreachable).state.channels)
      == AllMembers(s.channels)
  {
    if ResolveTarget(s.channels, DefaultTargetId).value == FindChannel(s.channels, id).value {
      DeleteEmptyFallback(s, h, id, name, env, unreachable);
    } else {
      DeleteElsewhereConservesMembers(s, h, id, name, env, unreachable);
    }
  }

  /** The membership count when the members move to another channel. */
  lemma DeleteElsewhereConservesMembers(s: Server, h: ClientId, id: ChannelId, name: string, env: Oracle, unreachable: set<ClientId>)
    requires Valid(s) && h in Handles(s.clients) && env.persisted
    requires id != LobbyChannelId && exists k :: 0 <= k < |s.channels| && s.channels[k].id == id
    requires ResolveTarget(s.channels, DefaultTargetId).value != FindChannel(s.channels, id).value
    ensures AllMembers(HandleDeleteChannel(s, h, Message(DeleteChannelRequest, ChannelData(id, name)), env, unreachable).state.channels)
      == AllMembers(s.channels)
  {
    var i := FindChannel(s.channels, id).value;
    var j := ResolveTarget(s.channels, DefaultTargetId).value;
    var ms := s.channels[i].members;
    var s1 := EvacuateMembers(s, ms);
    assert s1.channels == s.channels[j := s.channels[j].(members := s.channels[j].members + ms)];
    MoveThenRemove(s.channels, i, j);
  }

  /** Deleting the channel that is itself the evacuation target while it is
      empty: the loop at lines 253-256 has nothing to move, so the channel
      is simply removed and nothing throws. */
  lemma DeleteEmptyFallback(s: Server, h: ClientId, id: ChannelId, name: string, env: Oracle, unreachable: set<ClientId>)
    requires Valid(s) && h in Handles(s.clients) && env.persisted
    requires id != LobbyChannelId && exists k :: 0 <= k < |s.channels| && s.channels[k].id == id
    requires var i := FindChannel(s.channels, id).value;
      ResolveTarget(s.channels, DefaultTargetId).value == i && |s.channels[i].members| == 0
    ensures var r := HandleDeleteChannel(s, h, Message(DeleteChannelRequest, ChannelData(id, name)), env, unreachable);
      && !r.threw
      && r.state.channels == RemoveChannelAt(s.channels, FindChannel(s.channels, id).value)
      && r.state.sessions == s.sessions
      && AllMembers(r.state.channels) == AllMembers(s.channels)
  {
    var i := FindChannel(s.channels, id).value;
    var s1 := EvacuateMembers(s, []);
    assert s1.channels == s.channels by {
      assert s.channels[i].members + [] == s.channels[i].members;
    }
    AllMembersRemoveAt(s.channels, i);
    assert multiset(s.channels[i].members) == multiset{};
  }

  /** With unique ids, the deleted id is no longer found once the deletion
      goes through (another evacuation target, or an empty one). */
  lemma DeletedIdGone(s: Server, h: ClientId, id: ChannelId, name: string, env: Oracle, unreachable: set<ClientId>)
    requires Valid(s) && h in Handles(s.clients) && env.persisted && UniqueChannelIds(s.channels)
    requires id != LobbyChannelId && exists k :: 0 <= k < |s.channels| && s.channels[k].id == id
    requires var i := FindChannel(s.channels, id).value;
      ResolveTarget(s.channels, DefaultTargetId).value != i || |s.channels[i].members| == 0
    ensures FindChannel(HandleDeleteChannel(s, h, Message(DeleteChannelRequest, ChannelData(id, name)), env, unreachable).state.channels, id).None?
  {
    var i := FindChannel(s.channels, id).value;
    var ms := s.channels[i].members;
    var s1 := EvacuateMembers(s, ms);
    var r := HandleDeleteChannel(s, h, Message(DeleteChannelRequest, ChannelData(id, name)), env, unreachable);
    forall k | 0 <= k < |r.state.channels| ensures r.state.channels[k].id != id {
      if k < i {
        assert r.state.channels[k].id == s1.channels[k].id == s.channels[k].id;
      } else {
        assert r.state.channels[k].id == s1.channels[k + 1].id == s.channels[k + 1].id;
      }
    }
  }

  /** Deleting the channel that is itself the evacuation target, while it has
      members: the first member is appended to it again, the enumeration
      throws, and the channel stays. */
  lemma DeleteEvacuationTargetThrows(s: Server, h: ClientId, id: ChannelId, name: string, env: Oracle, unreachable: set<ClientId>)
    requires Valid(s) && h in Handles(s.clients) && env.persisted
    requires id != LobbyChannelId && exists k :: 0 <= k < |s.channels| && s.channels[k].id == id
    requires ResolveTarget(s.channels, DefaultTargetId).value == FindChannel(s.channels, id).value
    requires |s.channels[FindChannel(s.channels, id).value].members| > 0
    ensures var r := HandleDeleteChannel(s, h, Message(DeleteChannelRequest, ChannelData(id, name)), env, unreachable);
      var i := FindChannel(s.channels, id).value;
      var ms := s.channels[i].members;
      && r.threw && r.sent == []
      && |r.state.channels| == |s.channels|
      && r.state.channels[i].members == ms + [ms[0]]
  {
  }

  /** `CreateUserRequestHandler`: the outcome of `userService.CreateUser`,
      written back to the requester. */
  function HandleCreateUser(s: Server, h: ClientId, msg: Message, env: Oracle, unreachable: set<ClientId>): (r: Step)
    requires Valid(s) && h in Handles(s.clients)
    ensures r.state == s && Keeps(s, r)
    ensures r.threw <==> h in unreachable
    ensures h !in unreachable ==>
      r.sent == [Delivery(h, Message(CreateUserResponse, SimpleResult(msg.data.Credentials? && env.persisted)))]
  {
    var ok := msg.data.Credentials? && env.persisted;
    Reply(Step(s, [], false), h, Message(CreateUserResponse, SimpleResult(ok)), unreachable)
  }

  /** `UserChangeStatusRequestHandler`: set the status on the requester's
      session and announce it to everyone. */
  function HandleUserChangeStatus(s: Server, h: ClientId, msg: Message, unreachable: set<ClientId>): (r: Step)
    requires Valid(s) && h in Handles(s.clients)
    ensures Keeps(s, r)
    ensures r.state.channels == s.channels && r.state.clients == s.clients
    ensures ClientSession(s.clients, h).None? || !msg.data.StatusData? ==> r == Step(s, [], true)
    ensures ClientSession(s.clients, h).Some? && msg.data.StatusData? ==>
      var cid := ClientSession(s.clients, h).value;
      && !r.threw
      && r.state.sessions == s.sessions[cid := s.sessions[cid].(status := msg.data.status)]
  {
    match msg.data
    case StatusData(status) =>
      (match ClientSession(s.clients, h)
       case None => Step(s, [], true)
       case Some(cid) =>
         var s1 := s.(sessions := s.sessions[cid := s.sessions[cid].(status := status)]);
         ValidUpdateSession(s, cid, s.sessions[cid].(status := status));
         Step(s1, BroadcastAll(s1, h, Message(UserChangeStatusResponse, SessionData(Some(s1.sessions[cid]))), true, unreachable), false))
    case _ => Step(s, [], true)
  }

  /** Run one registered handler. */
  function Invoke(handler: Handler, s: Server, h: ClientId, msg: Message, env: Oracle, unreachable: set<ClientId>): (r: Step)
    requires Valid(s) && h in Handles(s.clients)
    ensures Keeps(s, r)
  {
    match handler
    case ChatHandler => HandleChannelMessage(s, h, msg, unreachable)
    case VoiceHandler => HandleChannelMessage(s, h, msg, unreachable)
    case CredentialRequestHandler => HandleCredentialRequest(s, h, msg, env, unreachable)
    case HelloHandler => Step(s, [], false)
    case GetAllChannelsRequestHandler => HandleGetAllChannels(s, h, unreachable)
    case UserChangeChannelRequestHandler => HandleUserChangeChannel(s, h, msg, unreachable)
    case CreateChannelRequestHandler => HandleCreateChannel(s, h, msg, env, unreachable)
    case RenameChannelRequestHandler => HandleRenameChannel(s, h, msg, env, unreachable)
    case DeleteChannelRequestHandler => HandleDeleteChannel(s, h, msg, env, unreachable)
    case CreateUserRequestHandler => HandleCreateUser(s, h, msg, env, unreachable)
    case UserChangeStatusRequestHandler => HandleUserChangeStatus(s, h, msg, unreachable)
  }

  /** `messageHandlers.TryGetValue(message.Type, …)` and the call: None when no
      handler is registered for the type. */
  function Dispatch(s: Server, h: ClientId, msg: Message, env: Oracle, unreachable: set<ClientId>): (r: Option<Step>)
    requires Valid(s) && h in Handles(s.clients)
    ensures r.None? <==> IsServerMessage(msg.kind)
    ensures r.Some? ==> Keeps(s, r.value)
  {
    DispatchTableShape();
    if msg.kind in MessageHandlers then Some(Invoke(MessageHandlers[msg.kind], s, h, msg, env, unreachable)) else None
  }
}

=== FILE: model.dfy ===
/** The server's in-memory state and message envelopes (Server/Server.cs).

    C# objects are modelled by value, with one exception: a `UserSession`
    object is shared between its `NetworkClient` and the member list of the
    channel it sits in, and the server mutates it through either reference.
    The model therefore keeps every session in one heap-like map keyed by its
    connection id, and clients and channels refer to sessions by that id.
    `Guid.NewGuid` is modelled as handing out the next unused number. */
module Model {

  datatype Option<T> = None | Some(value: T)

  /** A session's `ConnectionId` (a `Guid`). */
  type ConnId = nat
  /** The identity of a `NetworkClient` object (C# reference equality). */
  type ClientId = nat
  type ChannelId = int

  /** The id the delete handler refuses to delete. */
  const LobbyChannelId: ChannelId := 1
  /** The target id that login and channel evacuation pass to `AddUserToChannel`. */
  const DefaultTargetId: ChannelId := 0

  datatype UserSession = UserSession(connectionId: ConnId, username: string, channelId: ChannelId, status: int)

  /** A `ChannelSession`: the persisted channel plus the sessions in it, in order of joining. */
  datatype ChannelSession = ChannelSession(id: ChannelId, name: string, members: seq<ConnId>)

  /** A connected client and its (nullable) `UserSession`. */
  datatype NetworkClient = NetworkClient(handle: ClientId, session: Option<ConnId>)

  /** `channelSessions`, `connectedClients`, the session heap, and the number
      of connection ids issued so far. */
  datatype Server = Server(
    channels: seq<ChannelSession>,
    clients: seq<NetworkClient>,
    sessions: map<ConnId, UserSession>,
    issued: nat)

  datatype MessageType =
    | Chat | Voice | Hello
    | CredentialRequest | CredentialResponse
    | GetAllChannelsRequest | GetAllChannelsResponse
    | UserChangeChannelRequest | UserChangeChannelResponse
    | CreateChannelRequest | CreateChannelResponse
    | RenameChannelRequest | RenameChannelResponse
    | DeleteChannelRequest | DeleteChannelResponse
    | CreateUserRequest | CreateUserResponse
    | UserChangeStatusRequest | UserChangeStatusResponse
    | UserConnected | UserDisconnected

  /** The data a message carries, already deserialized by the transport. */
  datatype Payload =
    | NoData
    | Bytes(bytes: seq<int>)
    | Credentials(username: string, password: string)
    | ChannelData(channelId: ChannelId, channelName: string)
    | TargetChannel(target: int)
    | StatusData(status: int)
    | SessionData(session: Option<UserSession>)
    | CredentialResult(authenticated: bool, user: Option<UserSession>, text: string)
    | ChannelSnapshot(channel: ChannelSession)
    | ChannelList(channels: seq<ChannelSession>)
    | SimpleResult(success: bool)

  datatype Message = Message(kind: MessageType, data: Payload)

  /** One successful `WriteMessage` to one client. */
  datatype Delivery = Delivery(to: ClientId, msg: Message)

  /** The outcome of running server code: the state it leaves, the writes
      that succeeded in order, and whether an exception escaped. */
  datatype Step = Step(state: Server, sent: seq<Delivery>, threw: bool)

  /** No client object appears twice in the registry. */
  predicate DistinctHandles(cs: seq<NetworkClient>) {
    forall i, j :: 0 <= i < j < |cs| ==> cs[i].handle != cs[j].handle
  }

  /** Every session a client holds is in the heap. */
  predicate ClientSessionsLive(cs: seq<NetworkClient>, sessions: map<ConnId, UserSession>) {
    forall i :: 0 <= i < |cs| && cs[i].session.Some? ==> cs[i].session.value in sessions
  }

  /** Every session a channel lists is in the heap. */
  predicate MembersLive(chs: seq<ChannelSession>, sessions: map<ConnId, UserSession>) {
    forall i, k :: 0 <= i < |chs| && 0 <= k < |chs[i].members| ==> chs[i].members[k] in sessions
  }

  /** Every session carries its own key, and every key was issued already. */
  predicate SessionIdsIssued(sessions: map<ConnId, UserSession>, issued: nat) {
    forall cid :: cid in sessions ==> cid < issued && sessions[cid].connectionId == cid
  }

  /** Well-formedness of the object graph: client objects are distinct,
      every session reference points into the heap, and ids are fresh. */
  predicate Valid(s: Server) {
    && DistinctHandles(s.clients)
    && ClientSessionsLive(s.clients, s.sessions)
    && MembersLive(s.channels, s.sessions)
    && SessionIdsIssued(s.sessions, s.issued)
  }

  /** The client objects, in registry order. */
  function Handles(cs: seq<NetworkClient>): (r: seq<ClientId>)
    ensures |r| == |cs|
    ensures forall i :: 0 <= i < |cs| ==> r[i] == cs[i].handle
  {
    if |cs| == 0 then [] else [cs[0].handle] + Handles(cs[1..])
  }

  /** `channelSessions.FirstOrDefault(c => c.Channel.Id == id)`, as an index. */
  function FindChannel(cs: seq<ChannelSession>, id: ChannelId): (r: Option<nat>)
    ensures r.Some? ==> r.value < |cs| && cs[r.value].id == id
    ensures r.Some? ==> forall j :: 0 <= j < r.value ==> cs[j].id != id
    ensures r.None? <==> forall j :: 0 <= j < |cs| ==> cs[j].id != id
  {
    if |cs| == 0 then None
    else if cs[0].id == id then Some(0)
    else match FindChannel(cs[1..], id)
      case None => None
      case Some(i) => Some(i + 1)
  }

  /** The channel `AddUserToChannel` picks for `target`: the first with that
      id, or else the first channel of all. */
  ghost predicate IsTargetIndex(cs: seq<ChannelSession>, target: ChannelId, i: nat) {
    && i < |cs|
    && (|| (cs[i].id == target && forall j :: 0 <= j < i ==> cs[j].id != target)
        || (i == 0 && forall j :: 0 <= j < |cs| ==> cs[j].id != target))
  }

  /** Resolution of `AddUserToChannel`'s target; None when the channel list is
      empty (where `channelSessions[0]` throws). */
  function ResolveTarget(cs: seq<ChannelSession>, target: ChannelId): (r: Option<nat>)
    ensures r.None? <==> |cs| == 0
    ensures r.Some? ==> IsTargetIndex(cs, target, r.value)
  {
    match FindChannel(cs, target)
    case Some(i) => Some(i)
    case None => if |cs| == 0 then None else Some(0)
  }

  /** The resolved channel is the first channel carrying its own id, so a
      later lookup by that id finds it again. */
  lemma TargetIsFirstWithItsId(cs: seq<ChannelSession>, target: ChannelId, i: nat)
    requires IsTargetIndex(cs, target, i)
    ensures FindChannel(cs, cs[i].id) == Some(i)
  {
  }

  /** `client.UserSession` for the client object `h`. */
  function ClientSession(cs: seq<NetworkClient>, h: ClientId): (r: Option<ConnId>)
    ensures forall i :: 0 <= i < |cs| && cs[i].handle == h && (forall j :: 0 <= j < i ==> cs[j].handle != h)
              ==> r == cs[i].session
    ensures (forall i :: 0 <= i < |cs| ==> cs[i].handle != h) ==> r.None?
  {
    if |cs| == 0 then None
    else if cs[0].handle == h then cs[0].session
    else ClientSession(cs[1..], h)
  }

  /** The snapshot of a session that a message carries. */
  function Snapshot(s: Server, session: Option<ConnId>): (r: Option<UserSession>)
    requires session.Some? ==> session.value in s.sessions
  {
    match session
    case None => None
    case Some(cid) => Some(s.sessions[cid])
  }
}

=== FILE: store.dfy ===
/** The channel/session store helpers of Server/Server.cs: `AddChannel`,
    `AddUserToChannel`, `RemoveUserFromChannel`, and the evacuation loop of the
    delete handler. `ChannelSession.AddUser` is taken to set the session's
    `ChannelId` to the channel's id and then append it, so a null session
    throws before the member list changes; `ChannelSession.RemoveUser` to
    remove the first occurrence of its argument, and to do nothing for null. */
module Store {
  import opened Model

  /** The position of the first `x` in `xs`, or `|xs|` when there is none. */
  function IndexOf(xs: seq<ConnId>, x: ConnId): (k: nat)
    ensures k <= |xs| && x !in xs[..k]
    ensures k < |xs| <==> x in xs
    ensures k < |xs| ==> xs[k] == x
  {
    if |xs| == 0 then 0
    else if xs[0] == x then 0
    else
      var k := IndexOf(xs[1..], x);
      assert xs == [xs[0]] + xs[1..];
      assert xs[..k + 1] == [xs[0]] + xs[1..][..k];
      k + 1
  }

  /** `List.Remove`: drop the first occurrence of `x`, if any. */
  function RemoveFirst(xs: seq<ConnId>, x: ConnId): (r: seq<ConnId>)
    ensures x !in xs ==> r == xs
    ensures multiset(r) == multiset(xs) - multiset{x}
    ensures forall m :: m in r ==> m in xs
  {
    var k := IndexOf(xs, x);
    if k == |xs| then
      assert xs[..k] == xs;
      xs
    else
      assert xs == xs[..k] + [xs[k]] + xs[k + 1..];
      xs[..k] + xs[k + 1..]
  }

  /** Removal keeps the order of the remaining elements: everything before
      the first `x` stays in place, everything after it moves up by one. */
  lemma RemoveFirstShape(xs: seq<ConnId>, x: ConnId)
    requires x in xs
    ensures var k := IndexOf(xs, x); var r := RemoveFirst(xs, x);
      |r| == |xs| - 1 && r[..k] == xs[..k] && r[k..] == xs[k + 1..]
  {
  }

  /** All memberships of all channels, counted with multiplicity. */
  function AllMembers(cs: seq<ChannelSession>): (m: multiset<ConnId>) {
    if |cs| == 0 then multiset{} else multiset(cs[0].members) + AllMembers(cs[1..])
  }

  lemma {:induction false} AllMembersUpdate(cs: seq<ChannelSession>, i: nat, c: ChannelSession)
    requires i < |cs|
    ensures multiset(cs[i].members) <= AllMembers(cs)
    ensures AllMembers(cs[i := c]) == AllMembers(cs) - multiset(cs[i].members) + multiset(c.members)
    decreases |cs|
  {
    if i > 0 {
      AllMembersUpdate(cs[1..], i - 1, c);
      assert cs[i := c][1..] == cs[1..][i - 1 := c];
    } else {
      assert cs[i := c][1..] == cs[1..];
    }
  }

  lemma {:induction false} AllMembersRemoveAt(cs: seq<ChannelSession>, i: nat)
    requires i < |cs|
    ensures AllMembers(cs[..i] + cs[i + 1..]) + multiset(cs[i].members) == AllMembers(cs)
    decreases |cs|
  {
    if i > 0 {
      AllMembersRemoveAt(cs[1..], i - 1);
      assert (cs[..i] + cs[i + 1..])[1..] == cs[1..][..i - 1] + cs[1..][i..];
    } else {
      assert cs[..i] + cs[i + 1..] == cs[1..];
    }
  }

  lemma {:induction false} AllMembersAppend(cs: seq<ChannelSession>, c: ChannelSession)
    ensures AllMembers(cs + [c]) == AllMembers(cs) + multiset(c.members)
    decreases |cs|
  {
    if |cs| > 0 {
      AllMembersAppend(cs[1..], c);
      assert (cs + [c])[1..] == cs[1..] + [c];
    } else {
      assert (cs + [c])[1..] == [];
    }
  }

  /** Only the lists of members differ between two channel lists. */
  ghost predicate SameChannelIds(a: seq<ChannelSession>, b: seq<ChannelSession>) {
    |a| == |b| && forall k :: 0 <= k < |a| ==> a[k].id == b[k].id
  }

  lemma {:induction false} FindChannelSameIds(a: seq<ChannelSession>, b: seq<ChannelSession>, id: ChannelId)
    requires SameChannelIds(a, b)
    ensures FindChannel(a, id) == FindChannel(b, id)
    decreases |a|
  {
    if |a| > 0 {
      FindChannelSameIds(a[1..], b[1..], id);
    }
  }

  /** Replacing one channel by one whose members are live sessions keeps the
      object graph well formed. */
  lemma ValidUpdateChannel(s: Server, i: nat, c: ChannelSession)
    requires Valid(s) && i < |s.channels|
    requires forall m :: m in c.members ==> m in s.sessions
    ensures Valid(s.(channels := s.channels[i := c]))
  {
    var cs := s.channels[i := c];
    forall j, k | 0 <= j < |cs| && 0 <= k < |cs[j].members|
      ensures cs[j].members[k] in s.sessions
    {
      if j == i {
        assert cs[j].members[k] in c.members;
      }
    }
  }

  /** Overwriting a live session object keeps the object graph well formed. */
  lemma ValidUpdateSession(s: Server, cid: ConnId, u: UserSession)
    requires Valid(s) && cid in s.sessions && u.connectionId == cid
    ensures Valid(s.(sessions := s.sessions[cid := u]))
  {
  }

  /** Only the session `cid` changed, and only its channel, which is now `id`. */
  ghost predicate SessionMovedTo(s: Server, r: Server, cid: ConnId, id: ChannelId)
    requires cid in s.sessions
  {
    r.sessions == s.sessions[cid := s.sessions[cid].(channelId := id)]
  }

  /** `AddUserToChannel(userSession, target)`: `cid` joins exactly one channel, the
      one `target` resolves to, whose id it records; nothing else changes. With
      no channel at all, `channelSessions[0]` throws (None). */
  function AddUserToChannel(s: Server, cid: ConnId, target: ChannelId): (r: Option<Server>)
    requires cid in s.sessions
    ensures r.None? <==> |s.channels| == 0
    ensures r.Some? ==>
      var i := ResolveTarget(s.channels, target).value;
      && r.value.channels == s.channels[i := s.channels[i].(members := s.channels[i].members + [cid])]
      && SessionMovedTo(s, r.value, cid, s.channels[i].id)
      && r.value.clients == s.clients && r.value.issued == s.issued
    ensures r.Some? ==> SameChannelIds(s.channels, r.value.channels)
  {
    match ResolveTarget(s.channels, target)
    case None => None
    case Some(i) =>
      var ch := s.channels[i];
      var c := ch.(members := ch.members + [cid]);
      Some(s.(channels := s.channels[i := c],
              sessions := s.sessions[cid := s.sessions[cid].(channelId := ch.id)]))
  }

  lemma AddUserKeepsValid(s: Server, cid: ConnId, target: ChannelId)
    requires Valid(s) && cid in s.sessions
    ensures AddUserToChannel(s, cid, target).Some? ==> Valid(AddUserToChannel(s, cid, target).value)
  {
    if |s.channels| > 0 {
      var i := ResolveTarget(s.channels, target).value;
      var ch := s.channels[i];
      var c := ch.(members := ch.members + [cid]);
      ValidUpdateChannel(s, i, c);
      ValidUpdateSession(s.(channels := s.channels[i := c]), cid, s.sessions[cid].(channelId := ch.id));
    }
  }

  /** Channel `i` loses the first occurrence of `cid`; nothing else changes. */
  function RemoveMemberAt(s: Server, i: nat, cid: ConnId): (r: Server)
    requires i < |s.channels|
    ensures r.sessions == s.sessions && r.clients == s.clients && r.issued == s.issued
    ensures SameChannelIds(s.channels, r.channels)
    ensures r.channels[i].name == s.channels[i].name
    ensures multiset(r.channels[i].members) == multiset(s.channels[i].members) - multiset{cid}
    ensures cid !in s.channels[i].members ==> r.channels[i] == s.channels[i]
    ensures forall j :: 0 <= j < |s.channels| && j != i ==> r.channels[j] == s.channels[j]
  {
    var ch := s.channels[i];
    s.(channels := s.channels[i := ch.(members := RemoveFirst(ch.members, cid))])
  }

  /** `RemoveUserFromChannel(userSession)`: a null session, or one whose
      `ChannelId` names no channel, changes nothing; otherwise the first channel
      with that id loses one occurrence of the session, and nothing else changes. */
  function RemoveUserFromChannel(s: Server, session: Option<ConnId>): (r: Server)
    requires session.Some? ==> session.value in s.sessions
    ensures r.sessions == s.sessions && r.clients == s.clients && r.issued == s.issued
    ensures SameChannelIds(s.channels, r.channels)
    ensures session.None? ==> r == s
    ensures session.Some? && FindChannel(s.channels, s.sessions[session.value].channelId).None? ==> r == s
    ensures session.Some? && FindChannel(s.channels, s.sessions[session.value].channelId).Some? ==>
      var cid := session.value;
      var i := FindChannel(s.channels, s.sessions[cid].channelId).value;
      && r.channels[i].name == s.channels[i].name
      && multiset(r.channels[i].members) == multiset(s.channels[i].members) - multiset{cid}
      && (cid !in s.channels[i].members ==> r.channels[i] == s.channels[i])
      && (forall j :: 0 <= j < |s.channels| && j != i ==> r.channels[j] == s.channels[j])
  {
    match session
    case None => s
    case Some(cid) =>
      match FindChannel(s.channels, s.sessions[cid].channelId)
      case None => s
      case Some(i) => RemoveMemberAt(s, i, cid)
  }

  lemma RemoveUserKeepsValid(s: Server, session: Option<ConnId>)
    requires Valid(s) && (session.Some? ==> session.value in s.sessions)
    ensures Valid(RemoveUserFromChannel(s, session))
  {
    if session.Some? {
      var cid := session.value;
      var f := FindChannel(s.channels, s.sessions[cid].channelId);
      if f.Some? {
        var ch := s.channels[f.value];
        ValidUpdateChannel(s, f.value, ch.(members := RemoveFirst(ch.members, cid)));
      }
    }
  }

  /** `AddChannel`: append a channel to `channelSessions`; the existing
      channels keep their places and nothing else changes. */
  function AddChannel(s: Server, c: ChannelSession): (r: Server)
    ensures |r.channels| == |s.channels| + 1 && r.channels[|s.channels|] == c
    ensures forall i :: 0 <= i < |s.channels| ==> r.channels[i] == s.channels[i]
    ensures r.clients == s.clients && r.sessions == s.sessions && r.issued == s.issued
  {
    s.(channels := s.channels + [c])
  }

  /** After `AddChannel`, a lookup of a previously unused id finds the new
      channel at the end; lookups of every other id are unaffected. */
  lemma {:induction false} AddChannelLookup(s: Server, c: ChannelSession, id: ChannelId)
    ensures FindChannel(s.channels, c.id).None? ==> FindChannel(AddChannel(s, c).channels, c.id) == Some(|s.channels|)
    ensures id != c.id ==> FindChannel(AddChannel(s, c).channels, id) == FindChannel(s.channels, id)
    ensures FindChannel(s.channels, id).Some? ==> FindChannel(AddChannel(s, c).channels, id) == FindChannel(s.channels, id)
    ensures AllMembers(AddChannel(s, c).channels) == AllMembers(s.channels) + multiset(c.members)
  {
    var cs := AddChannel(s, c).channels;
    assert forall j :: 0 <= j < |s.channels| ==> cs[j] == s.channels[j];
    assert cs[|s.channels|] == c;
    if FindChannel(s.channels, c.id).None? {
      var f := FindChannel(cs, c.id);
      assert f.Some?;
      assert f.value == |s.channels|;
    }
    AllMembersAppend(s.channels, c);
  }

  /** A session is placed when it is a member of exactly one channel, and that
      channel is the one its `ChannelId` leads to. */
  ghost predicate Placed(s: Server, cid: ConnId) {
    && cid in s.sessions
    && AllMembers(s.channels)[cid] == 1
    && var f := FindChannel(s.channels, s.sessions[cid].channelId);
       f.Some? && cid in s.channels[f.value].members
  }

  /** Adding a session that is in no channel places it. */
  lemma AddPlaces(s: Server, cid: ConnId, target: ChannelId)
    requires cid in s.sessions && AllMembers(s.channels)[cid] == 0
    requires |s.channels| > 0
    ensures Placed(AddUserToChannel(s, cid, target).value, cid)
    ensures AllMembers(AddUserToChannel(s, cid, target).value.channels) == AllMembers(s.channels) + multiset{cid}
  {
    var r := AddUserToChannel(s, cid, target).value;
    var i := ResolveTarget(s.channels, target).value;
    assert r.channels == s.channels[i := r.channels[i]];
    AllMembersUpdate(s.channels, i, r.channels[i]);
    TargetIsFirstWithItsId(s.channels, target, i);
    FindChannelSameIds(s.channels, r.channels, s.channels[i].id);
    assert r.channels[i].members[|s.channels[i].members|] == cid;
  }

  /** Removing a placed session leaves it in no channel. */
  lemma RemoveUnplaces(s: Server, cid: ConnId)
    requires Placed(s, cid)
    ensures AllMembers(RemoveUserFromChannel(s, Some(cid)).channels)[cid] == 0
    ensures AllMembers(RemoveUserFromChannel(s, Some(cid)).channels) == AllMembers(s.channels) - multiset{cid}
  {
    var r := RemoveUserFromChannel(s, Some(cid));
    var i := FindChannel(s.channels, s.sessions[cid].channelId).value;
    assert r.channels == s.channels[i := r.channels[i]];
    AllMembersUpdate(s.channels, i, r.channels[i]);
  }

  /** Moving a placed session, by removing it and adding it for `target`,
      places it in the channel the target resolves to and keeps the overall
      membership. */
  lemma MoveKeepsPlacement(s: Server, cid: ConnId, target: ChannelId)
    requires Placed(s, cid) && |s.channels| > 0
    ensures var r := AddUserToChannel(RemoveUserFromChannel(s, Some(cid)), cid, target);
      && r.Some?
      && Placed(r.value, cid)
      && |r.value.channels| == |s.channels|
      && cid in r.value.channels[ResolveTarget(s.channels, target).value].members
      && AllMembers(r.value.channels) == AllMembers(s.channels)
  {
    var s1 := RemoveUserFromChannel(s, Some(cid));
    RemoveUnplaces(s, cid);
    AddPlaces(s1, cid, target);
    FindChannelSameIds(s.channels, s1.channels, target);
    var i := ResolveTarget(s1.channels, target).value;
    var s2 := AddUserToChannel(s1, cid, target).value;
    assert s2.channels[i].members[|s1.channels[i].members|] == cid;
    assert AllMembers(s.channels) == AllMembers(s1.channels) + multiset{cid};
  }

  /** Adding a session that was in no channel and removing it again restores
      every channel. */
  lemma RemoveAfterAdd(s: Server, cid: ConnId, target: ChannelId)
    requires cid in s.sessions && AllMembers(s.channels)[cid] == 0
    requires |s.channels| > 0
    ensures RemoveUserFromChannel(AddUserToChannel(s, cid, target).value, Some(cid)).channels == s.channels
  {
    var r := AddUserToChannel(s, cid, target).value;
    var i := ResolveTarget(s.channels, target).value;
    TargetIsFirstWithItsId(s.channels, target, i);
    FindChannelSameIds(s.channels, r.channels, s.channels[i].id);
    var ms := s.channels[i].members;
    InNoChannel(s.channels, i, cid);
    RemoveFirstAppended(ms, cid);
    assert RemoveUserFromChannel(r, Some(cid)) == RemoveMemberAt(r, i, cid);
    assert r.channels[i].(members := ms) == s.channels[i];
    assert r.channels[i := s.channels[i]] == s.channels;
  }

  /** A session missing from the heap is a member of no channel. */
  lemma {:induction false} DeadNotMember(cs: seq<ChannelSession>, sessions: map<ConnId, UserSession>, cid: ConnId)
    requires MembersLive(cs, sessions) && cid !in sessions
    ensures AllMembers(cs)[cid] == 0
    decreases |cs|
  {
    if |cs| > 0 {
      assert cid !in cs[0].members by {
        forall k | 0 <= k < |cs[0].members| ensures cs[0].members[k] != cid {
          assert cs[0].members[k] in sessions;
        }
      }
      assert MembersLive(cs[1..], sessions) by {
        forall i, k | 0 <= i < |cs[1..]| && 0 <= k < |cs[1..][i].members| ensures cs[1..][i].members[k] in sessions {
          assert cs[1..][i] == cs[i + 1];
        }
      }
      DeadNotMember(cs[1..], sessions, cid);
    }
  }

  /** A session counted in no channel is a member of none. */
  lemma InNoChannel(cs: seq<ChannelSession>, i: nat, cid: ConnId)
    requires i < |cs| && AllMembers(cs)[cid] == 0
    ensures cid !in cs[i].members
  {
    AllMembersUpdate(cs, i, cs[i]);
    assert cid !in multiset(cs[i].members);
  }

  /** Removing the one occurrence of `x` that was just appended undoes the append. */
  lemma RemoveFirstAppended(ms: seq<ConnId>, x: ConnId)
    requires x !in ms
    ensures RemoveFirst(ms + [x], x) == ms
  {
    var xs := ms + [x];
    assert IndexOf(xs, x) == |ms| by {
      assert xs[|ms|] == x;
      assert xs[..|ms|] == ms;
    }
    RemoveFirstShape(xs, x);
    var r := RemoveFirst(xs, x);
    assert r == r[..|ms|];
  }

  /** The evacuation loop of the delete handler: each of `ms`, in order, is
      added to the channel the default target id resolves to. Altogether the
      evacuees are appended, in order, to that one channel, and no other
      channel changes. */
  function EvacuateMembers(s: Server, ms: seq<ConnId>): (r: Server)
    requires |s.channels| > 0
    requires forall m :: m in ms ==> m in s.sessions
    ensures SameChannelIds(s.channels, r.channels)
    ensures r.sessions.Keys == s.sessions.Keys
    ensures r.clients == s.clients && r.issued == s.issued
    ensures var j := ResolveTarget(s.channels, DefaultTargetId).value;
      r.channels == s.channels[j := s.channels[j].(members := s.channels[j].members + ms)]
    decreases |ms|
  {
    if |ms| == 0 then
      assert forall i :: 0 <= i < |s.channels| ==> s.channels[i].members + ms == s.channels[i].members;
      s
    else
      var j := ResolveTarget(s.channels, DefaultTargetId).value;
      var s1 := AddUserToChannel(s, ms[0], DefaultTargetId).value;
      EvacuateHead(s, ms[0], j);
      assert s.channels[j].members + [ms[0]] + ms[1..] == s.channels[j].members + ms;
      EvacuateMembers(s1, ms[1..])
  }

  lemma {:induction false} EvacuationKeepsValid(s: Server, ms: seq<ConnId>)
    requires Valid(s) && |s.channels| > 0
    requires forall m :: m in ms ==> m in s.sessions
    ensures Valid(EvacuateMembers(s, ms))
    decreases |ms|
  {
    if |ms| > 0 {
      AddUserKeepsValid(s, ms[0], DefaultTargetId);
      EvacuationKeepsValid(AddUserToChannel(s, ms[0], DefaultTargetId).value, ms[1..]);
    }
  }

  /** One evacuee joins channel `j`, which stays the resolved target. */
  lemma EvacuateHead(s: Server, m: ConnId, j: nat)
    requires m in s.sessions
    requires ResolveTarget(s.channels, DefaultTargetId) == Some(j)
    ensures var s1 := AddUserToChannel(s, m, DefaultTargetId).value;
      && s1.channels == s.channels[j := s.channels[j].(members := s.channels[j].members + [m])]
      && ResolveTarget(s1.channels, DefaultTargetId) == Some(j)
  {
    var s1 := AddUserToChannel(s, m, DefaultTargetId).value;
    FindChannelSameIds(s.channels, s1.channels, DefaultTargetId);
  }

  /** Evacuation records channel `j` on every evacuee and touches no other
      session. */
  lemma {:induction false} EvacuationRelabelsMembers(s: Server, ms: seq<ConnId>, j: nat)
    requires forall m :: m in ms ==> m in s.sessions
    requires ResolveTarget(s.channels, DefaultTargetId) == Some(j)
    ensures
      var r := EvacuateMembers(s, ms);
      && (forall m :: m in ms ==> r.sessions[m] == s.sessions[m].(channelId := s.channels[j].id))
      && (forall m :: m in s.sessions && m !in ms ==> r.sessions[m] == s.sessions[m])
    decreases |ms|
  {
    if |ms| > 0 {
      var s1 := AddUserToChannel(s, ms[0], DefaultTargetId).value;
      FindChannelSameIds(s.channels, s1.channels, DefaultTargetId);
      EvacuationRelabelsMembers(s1, ms[1..], j);
      var r := EvacuateMembers(s, ms);
      assert r == EvacuateMembers(s1, ms[1..]);
      forall m | m in ms
        ensures r.sessions[m] == s.sessions[m].(channelId := s.channels[j].id)
      {
        if m !in ms[1..] {
          assert m == ms[0];
        }
      }
      forall m | m in s.sessions && m !in ms
        ensures r.sessions[m] == s.sessions[m]
      {
        assert m != ms[0] && m !in ms[1..];
      }
    }
  }
}

=== FILE: text.dfy ===
/** Text helpers the server relies on: .NET's whitespace predicate, used to
    recognise a blank username, and the decimal rendering behind the
    "Anon#<n>" display names of anonymous users. */
module Text {

  /** The characters for which .NET's `char.IsWhiteSpace` holds: the ASCII
      controls TAB..CR, the space, and the Unicode separators. */
  predicate IsWhiteSpace(c: char) {
    || c == ' ' || ('\t' <= c <= '\r')
    || c == '\U{85}' || c == '\U{A0}' || c == '\U{1680}'
    || ('\U{2000}' <= c <= '\U{200A}')
    || c == '\U{2028}' || c == '\U{2029}' || c == '\U{202F}' || c == '\U{205F}'
    || c == '\U{3000}'
  }

  /** `string.IsNullOrWhiteSpace`; a null string is modelled as the empty one. */
  predicate IsNullOrWhiteSpace(s: string) {
    forall i :: 0 <= i < |s| ==> IsWhiteSpace(s[i])
  }

  predicate IsDigit(c: char) {
    '0' <= c <= '9'
  }

  predicate AllDigits(s: string) {
    forall i :: 0 <= i < |s| ==> IsDigit(s[i])
  }

  function DigitChar(d: nat): (c: char)
    requires d < 10
    ensures IsDigit(c) && c as int - '0' as int == d
  {
    ('0' as int + d) as char
  }

  /** The value of a string of decimal digits. */
  function DecimalValue(s: string): (n: nat)
    requires AllDigits(s)
  {
    if |s| == 0 then 0
    else DecimalValue(s[..|s| - 1]) * 10 + (s[|s| - 1] as int - '0' as int)
  }

  /** `int.ToString()` for a non-negative value: the shortest decimal form. */
  function NatToString(n: nat): (r: string)
    ensures |r| >= 1 && AllDigits(r)
    ensures r[0] == '0' ==> |r| == 1 && n == 0
    decreases n
  {
    if n < 10 then [DigitChar(n)] else NatToString(n / 10) + [DigitChar(n % 10)]
  }

  /** Rendering a number and reading it back gives the number. */
  lemma {:induction false} DecimalRoundTrip(n: nat)
    ensures DecimalValue(NatToString(n)) == n
    decreases n
  {
    var r := NatToString(n);
    if n >= 10 {
      DecimalRoundTrip(n / 10);
      assert r[..|r| - 1] == NatToString(n / 10);
    }
  }

  const AnonPrefix: string := "Anon#"

  /** The display name of an anonymous user, `"Anon#" + n`. */
  function AnonName(n: nat): (r: string)
    ensures |r| > |AnonPrefix| && r[..|AnonPrefix|] == AnonPrefix
    ensures AllDigits(r[|AnonPrefix|..])
    ensures !IsNullOrWhiteSpace(r)
  {
    var r := AnonPrefix + NatToString(n);
    assert r[0] == 'A' && !IsWhiteSpace(r[0]);
    assert r[|AnonPrefix|..] == NatToString(n);
    r
  }

  /** Distinct numbers give distinct anonymous names. */
  lemma AnonNameInjective(a: nat, b: nat)
    requires AnonName(a) == AnonName(b)
    ensures a == b
  {
    DecimalRoundTrip(a);
    DecimalRoundTrip(b);
    assert AnonName(a)[|AnonPrefix|..] == NatToString(a);
    assert AnonName(b)[|AnonPrefix|..] == NatToString(b);
  }
}
